=== FILE: README.md ===
# Trailblaze Calendar detail page: the filter engine

Starward's Trailblaze Calendar detail page lists the Stellar Jade and Star Rail Pass
ledger items of a Honkai: Star Rail account. The page takes one flat list of
`TrailblazeCalendarDetailItem`s and keeps four facets in step: the item type, the year,
the month and the action name. Each year, month and name drop-down offers a localized
"all" sentinel followed by the values present in the items. The month and name lists are
scoped by the facets above them.

- When a facet changes, the lists below it are rebuilt by clear, replace, restore.
- The page then shows the matching items, newest first.
- It also shows the sum of their `Number` and their count.

This project models that engine in Dafny as pure functions over immutable values:

- `numerals.dfy` (module `Numerals`): `int.ToString()`, the two-digit `"MM"` month key,
  the `n月` month label, and `int.TryParse` with the default number style (white space
  around, optional sign, decimal digits, `int` range). It proves that a month label parses
  back to its month.
- `ordering.dfy` (module `Ordering`): the ordinal string order and
  `Distinct().OrderBy(...)` / `OrderByDescending(...)` over it. It proves that a strictly
  sorted list is determined by its members, and that ordering the `"MM"` keys orders the
  months.
- `ledger.dfy` (module `Ledger`): the item, the stable `OrderByDescending(x => x.Time)` of
  the load, and `Sum(x => x.Number)`. The sum is checked: it fails when a running total
  leaves the `int` range.
- `facets.dfy` (module `Facets`): the facet value `Choice` (null, the sentinel, or a
  label), the `Where` chain, and the year, month and name option lists, with lemmas
  stating their exact contents and order.
- `detail_page.dfy` (module `DetailPage`): the page state, `UpdateMonthsAndNames`,
  `UpdateActionNames`, `ApplyFilters`, the load, one transition per change handler and
  the toggle, and the page invariant `Consistent`. It proves that each handler keeps
  `Consistent` for every value its guard admits. With stale values ignored, as the guards
  intend, it also proves that every sequence of user events keeps `Consistent` (see
  "## Findings").
- `reentrant.dfy` (module `Reentrant`): the same updates as they run, through the
  generated setters, the change hooks they fire and the `_isUpdatingFilters` flag. It
  records every state the page shows on the way. It proves that each handler and the
  load end in the page `DetailPage` computes. It also proves that no state shown selects
  a month or a name its list does not hold, for every year, type click and load, and for
  a listed or null month or name. A stale month or name is stored and shown (see
  "## Findings").

The year and month hooks clear `_isUpdatingFilters` in their `finally` on every exit,
their early returns included. So a hook fired during an update ends the suppression for
the rest of it. Take a year change or a type click while a month is selected. The hook
fired by clearing the month returns early but lowers the flag. The hook of the restored
month then runs in full: it rebuilds the names and filters once more. The names are then
rebuilt again, and each changed name assignment re-runs the filter. `Reentrant` follows
these nested calls, and the extra rebuild changes nothing
(`DetailPage.UpdateActionNamesIdempotent`).

A stale value is a non-empty facet value that its current option list does not hold.
The change handlers carry a guard against stale values. The page code is followed as
written, including what the generated `[ObservableProperty]` setters do. A setter does
nothing for an unchanged value. Otherwise it stores the new value and only then runs the
`On…Changed` hook. So a stale value rejected by a handler's guard is still stored,
although the guard's comment (lines 218, 250 and 281 of
`TrailblazeCalendarDetailPage.xaml.cs`) says the change is to be ignored. The model
follows the code, and the discrepancy is logged under "## Findings".

## Model

| member | source | states |
|---|---|---|
| Ledger.SortByTimeDesc | src/Starward/Features/GameRecord/StarRail/TrailblazeCalendarDetailPage.xaml.cs:164 | The loaded list is reordered newest first and keeps exactly the loaded items, with their multiplicities |
| Ledger.InsertByTimeCount | src/Starward/Features/GameRecord/StarRail/TrailblazeCalendarDetailPage.xaml.cs:164 | One insertion step of the sort adds the new item and loses none |
| Ledger.SortIsStable | src/Starward/Features/GameRecord/StarRail/TrailblazeCalendarDetailPage.xaml.cs:164 | Items with the same `Time` keep their load order: the sort breaks no tie by any other key |
| Ledger.CheckedSumSpec | src/Starward/Features/GameRecord/StarRail/TrailblazeCalendarDetailPage.xaml.cs:544-556 | `Sum(x => x.Number)` over `int` returns the mathematical sum exactly when every running total fits an `int`, and throws otherwise |
| Numerals.DecimalText | src/Starward/Features/GameRecord/StarRail/TrailblazeCalendarDetailPage.xaml.cs:192 | `Year.ToString()` is a non-empty run of decimal digits whose value is the year, with no leading zero unless it is "0" itself |
| Numerals.ParseIntText | src/Starward/Features/GameRecord/StarRail/TrailblazeCalendarDetailPage.xaml.cs:442 | `int.TryParse` reads back every `int` that `ToString()` writes, negative ones included |
| Numerals.ParsePad2 | src/Starward/Features/GameRecord/StarRail/TrailblazeCalendarDetailPage.xaml.cs:357-367 | `int.Parse` of a two-digit `"MM"` key gives the month it was made from |
| Numerals.MonthTextsExample | src/Starward/Features/GameRecord/StarRail/TrailblazeCalendarDetailPage.xaml.cs:357-367 | Month 7 is keyed "07" by `ToString("MM")` and labelled "7月", without the padding |
| Numerals.ParseMonthLabelRoundTrip | src/Starward/Features/GameRecord/StarRail/TrailblazeCalendarDetailPage.xaml.cs:441-444 | Stripping `月` from the label `$"{n}月"` and parsing the rest gives `n` back |
| Numerals.RemoveCharAppend | src/Starward/Features/GameRecord/StarRail/TrailblazeCalendarDetailPage.xaml.cs:441 | `Replace("月", "")` removes the character from each part of a concatenation independently |
| Ordering.LexTotal | src/Starward/Features/GameRecord/StarRail/TrailblazeCalendarDetailPage.xaml.cs:453-458 | Of two distinct strings, the ordinal order puts one strictly first |
| Ordering.LexTransitive | src/Starward/Features/GameRecord/StarRail/TrailblazeCalendarDetailPage.xaml.cs:453-458 | The ordinal order is transitive |
| Ordering.LexIrreflexive | src/Starward/Features/GameRecord/StarRail/TrailblazeCalendarDetailPage.xaml.cs:453-458 | No string sorts strictly before itself |
| Ordering.Pad2Order | src/Starward/Features/GameRecord/StarRail/TrailblazeCalendarDetailPage.xaml.cs:357-361 | One `"MM"` key sorts before another exactly when its month is smaller, so sorting the keys sorts the months |
| Ordering.SortDistinct | src/Starward/Features/GameRecord/StarRail/TrailblazeCalendarDetailPage.xaml.cs:191-195 | `Distinct()` followed by `OrderBy` or `OrderByDescending` holds exactly the input's values, strictly ordered, so each value appears once |
| Ordering.SortedUnique | src/Starward/Features/GameRecord/StarRail/TrailblazeCalendarDetailPage.xaml.cs:191-195 | Two strictly sorted lists with the same members are equal, so the option list is fixed by the values it holds |
| Facets.Keep | src/Starward/Features/GameRecord/StarRail/TrailblazeCalendarDetailPage.xaml.cs:516-543 | The `Where` chain keeps each matching item with its multiplicity and drops every other item, in list order |
| Facets.KeepMembership | src/Starward/Features/GameRecord/StarRail/TrailblazeCalendarDetailPage.xaml.cs:516-543 | An item is kept exactly when it is listed and matches every facet |
| Facets.KeepKeepsTimeOrder | src/Starward/Features/GameRecord/StarRail/TrailblazeCalendarDetailPage.xaml.cs:516-543 | Filtering a newest-first list leaves it newest first |
| Facets.KeepNarrower | src/Starward/Features/GameRecord/StarRail/TrailblazeCalendarDetailPage.xaml.cs:427-446 | Adding the month facet to the type and year facets can only shrink the pool |
| Facets.YearOptions | src/Starward/Features/GameRecord/StarRail/TrailblazeCalendarDetailPage.xaml.cs:191-198 | The year list starts with the sentinel, and every later entry is a non-empty label |
| Facets.YearOptionsSpec | src/Starward/Features/GameRecord/StarRail/TrailblazeCalendarDetailPage.xaml.cs:191-198 | After the sentinel, the year list holds exactly the year of every item, whatever its type, each once, in descending order |
| Facets.MonthOptions | src/Starward/Features/GameRecord/StarRail/TrailblazeCalendarDetailPage.xaml.cs:328-367 | The month list starts with the sentinel, and every later entry is a non-empty label |
| Facets.MonthOptionsShape | src/Starward/Features/GameRecord/StarRail/TrailblazeCalendarDetailPage.xaml.cs:336-367 | After the sentinel, the month list is the label of each month of the type-and-year pool, once each, months descending |
| Facets.MonthOptionsSpec | src/Starward/Features/GameRecord/StarRail/TrailblazeCalendarDetailPage.xaml.cs:336-367 | After the sentinel, the month list holds exactly the labels of the pool's months. Each label parses back to a month from 1 to 12, and the parsed months descend |
| Facets.RelabelMonths | src/Starward/Features/GameRecord/StarRail/TrailblazeCalendarDetailPage.xaml.cs:367 | `$"{int.Parse(m)}月"` applied to each key succeeds exactly when every key parses, and labels each key with its parsed value |
| Facets.MonthLabelSelectsMonth | src/Starward/Features/GameRecord/StarRail/TrailblazeCalendarDetailPage.xaml.cs:527-535 | Selecting the label of month `m` restricts the filter to exactly the items whose `Time.Month` is `m` |
| Facets.NameOptions | src/Starward/Features/GameRecord/StarRail/TrailblazeCalendarDetailPage.xaml.cs:420-463 | The name list starts with the sentinel, and every later entry is a non-empty label |
| Facets.NameOptionsSpec | src/Starward/Features/GameRecord/StarRail/TrailblazeCalendarDetailPage.xaml.cs:427-462 | After the sentinel, the name list holds exactly the non-empty `ActionName`s of the type, year and month pool, each once, ascending |
| Facets.NamesOf | src/Starward/Features/GameRecord/StarRail/TrailblazeCalendarDetailPage.xaml.cs:453-455 | The collected names are exactly the non-empty names of the pool |
| DetailPage.Restore | src/Starward/Features/GameRecord/StarRail/TrailblazeCalendarDetailPage.xaml.cs:382-392 | The restored selection is always one of the new options |
| DetailPage.RestoreKeepsListed | src/Starward/Features/GameRecord/StarRail/TrailblazeCalendarDetailPage.xaml.cs:382-392 | An entry of an option list is non-empty, so it is restored to itself |
| DetailPage.UpdateActionNames | src/Starward/Features/GameRecord/StarRail/TrailblazeCalendarDetailPage.xaml.cs:412-501 | The name list is rebuilt from type, year and month. The old name is kept iff it is non-empty and still listed, and is "all" otherwise. Nothing else changes |
| DetailPage.UpdateMonthsAndNames | src/Starward/Features/GameRecord/StarRail/TrailblazeCalendarDetailPage.xaml.cs:320-410 | The month list is rebuilt from type and year, and the month is kept iff non-empty and still listed. The names are then rebuilt under the settled month in the same way. Nothing else changes |
| DetailPage.UpdateActionNamesIdempotent | src/Starward/Features/GameRecord/StarRail/TrailblazeCalendarDetailPage.xaml.cs:412-501 | Rebuilding the name list a second time under the same facets changes nothing |
| DetailPage.EmptyPoolResetsSelections | src/Starward/Features/GameRecord/StarRail/TrailblazeCalendarDetailPage.xaml.cs:349-354 | When no item has the selected type and year, the month and name lists are just "all", and both selections are "all" |
| DetailPage.ApplyFilters | src/Starward/Features/GameRecord/StarRail/TrailblazeCalendarDetailPage.xaml.cs:503-558 | The filtered items are an order-preserving subsequence of the items, each matching every facet. The total is their sum, and both are empty and 0 with no items. Nothing else changes |
| DetailPage.ApplyFiltersSpec | src/Starward/Features/GameRecord/StarRail/TrailblazeCalendarDetailPage.xaml.cs:543-556 | Without overflow, the filtered items are exactly the listed items that match. The total is their sum and `RecordCount` their number. On overflow both are cleared |
| DetailPage.FilteredNewestFirst | src/Starward/Features/GameRecord/StarRail/TrailblazeCalendarDetailPage.xaml.cs:516-543 | The filtered list is newest first |
| DetailPage.ApplyFiltersIdempotent | src/Starward/Features/GameRecord/StarRail/TrailblazeCalendarDetailPage.xaml.cs:503-558 | Applying the filters twice changes nothing more |
| DetailPage.ApplyFiltersReadsFacets | src/Starward/Features/GameRecord/StarRail/TrailblazeCalendarDetailPage.xaml.cs:503-558 | The filter pass reads only the items, the type and the selections, so pages that differ only in their filtered items and total filter alike |
| DetailPage.LoadSpec | src/Starward/Features/GameRecord/StarRail/TrailblazeCalendarDetailPage.xaml.cs:122-210 | After a load the page is consistent and holds the loaded items, with every facet on "all". With no items, every list is just its sentinel, and the page shows nothing with a total of 0 |
| DetailPage.SelectYear | src/Starward/Features/GameRecord/StarRail/TrailblazeCalendarDetailPage.xaml.cs:212-242 | An unchanged year does nothing. A changed year is stored. A stale year triggers no recomputation; an admitted one rebuilds the month and name lists for it |
| DetailPage.SelectMonth | src/Starward/Features/GameRecord/StarRail/TrailblazeCalendarDetailPage.xaml.cs:244-275 | The same guard and storing as `SelectYear`. An admitted, changed month rebuilds the name list for it and selects an entry of it. Apart from the month, the name list, the name and the filtered items and total, nothing changes |
| DetailPage.SelectName | src/Starward/Features/GameRecord/StarRail/TrailblazeCalendarDetailPage.xaml.cs:277-288 | The same guard and storing as `SelectYear`. An admitted, changed name re-runs the filter. Apart from the name and the filtered items and total, nothing changes |
| DetailPage.ClickTypeToggle | src/Starward/Features/GameRecord/StarRail/TrailblazeCalendarDetailPage.xaml.cs:290-318 | Unchecking the current type is refused and changes nothing. Otherwise the type is set and months and names are rebuilt for it. The year list and year are never touched |
| DetailPage.SelectYearKeepsConsistent | src/Starward/Features/GameRecord/StarRail/TrailblazeCalendarDetailPage.xaml.cs:212-242 | An admitted year keeps the page consistent |
| DetailPage.SelectMonthKeepsConsistent | src/Starward/Features/GameRecord/StarRail/TrailblazeCalendarDetailPage.xaml.cs:244-275 | An admitted month keeps the page consistent |
| DetailPage.SelectNameKeepsConsistent | src/Starward/Features/GameRecord/StarRail/TrailblazeCalendarDetailPage.xaml.cs:277-288 | An admitted name keeps the page consistent |
| DetailPage.ClickTypeToggleKeepsConsistent | src/Starward/Features/GameRecord/StarRail/TrailblazeCalendarDetailPage.xaml.cs:290-318 | Every type click keeps the page consistent, although the year list is not rebuilt |
| DetailPage.RebuildKeepsListedSelections | src/Starward/Features/GameRecord/StarRail/TrailblazeCalendarDetailPage.xaml.cs:320-410 | When the lists already are the ones the facets give and the month and name are entries of them, rebuilding months and names leaves the page exactly as it was |
| DetailPage.ReselectTypeIsNoOp | src/Starward/Features/GameRecord/StarRail/TrailblazeCalendarDetailPage.xaml.cs:303-311 | On a consistent page whose month and name are both entries of their lists, not null or empty, re-selecting the current type restores the same month and name and leaves the whole page as it was |
| DetailPage.StaleYearIsStored | src/Starward/Features/GameRecord/StarRail/TrailblazeCalendarDetailPage.xaml.cs:218-222 | As written, a stale year is stored anyway, and the page stops being consistent |
| DetailPage.StaleMonthIsStored | src/Starward/Features/GameRecord/StarRail/TrailblazeCalendarDetailPage.xaml.cs:250-254 | As written, a stale month is stored anyway, and the page stops being consistent |
| DetailPage.StaleNameIsStored | src/Starward/Features/GameRecord/StarRail/TrailblazeCalendarDetailPage.xaml.cs:281-285 | As written, a stale name is stored anyway, and the page stops being consistent |
| DetailPage.StaleYearExample | src/Starward/Features/GameRecord/StarRail/TrailblazeCalendarDetailPage.xaml.cs:212-222 | After loading no items, setting the year to "2024" stores it, though the year list is just "all" |
| DetailPage.SelectYearIgnoringStale | src/Starward/Features/GameRecord/StarRail/TrailblazeCalendarDetailPage.xaml.cs:218-226 | Corrected handler: a stale year leaves the page unchanged. An admitted year is selected. When it changes, the month and name lists are rebuilt for it and the month and name are entries of them; the year list and the type are kept |
| DetailPage.SelectMonthIgnoringStale | src/Starward/Features/GameRecord/StarRail/TrailblazeCalendarDetailPage.xaml.cs:250-258 | Corrected handler: a stale month leaves the page unchanged. An admitted month is selected. Apart from the month, the name list, the name and the filtered items and total, nothing changes. When the month changes, the name list is rebuilt for it and the name is an entry of it |
| DetailPage.SelectNameIgnoringStale | src/Starward/Features/GameRecord/StarRail/TrailblazeCalendarDetailPage.xaml.cs:281-287 | Corrected handler: a stale name leaves the page unchanged. An admitted name is selected. Apart from the name and the filtered items and total, nothing changes. When the name changes, every filtered item matches the facets with the new name, and the total is their sum |
| DetailPage.IgnoringStaleKeepsConsistent | src/Starward/Features/GameRecord/StarRail/TrailblazeCalendarDetailPage.xaml.cs:212-288 | With stale values ignored, every selection handler keeps the page consistent, whatever value it gets |
| DetailPage.StepKeepsConsistent | src/Starward/Features/GameRecord/StarRail/TrailblazeCalendarDetailPage.xaml.cs:212-318 | Each user event keeps the page consistent, with the year, month and name handled by the corrected handlers that ignore stale values |
| DetailPage.RunKeepsConsistent | src/Starward/Features/GameRecord/StarRail/TrailblazeCalendarDetailPage.xaml.cs:212-318 | Any sequence of user events keeps a consistent page consistent, with the corrected handlers that ignore stale values |
| DetailPage.SessionStaysConsistent | src/Starward/Features/GameRecord/StarRail/TrailblazeCalendarDetailPage.xaml.cs:122-318 | From the load on, after any events handled by the corrected handlers that ignore stale values, every selection is one its guard admits, every list is derived from the facets above it, and the total is the sum of the shown items |
| Reentrant.OnNameChanged | src/Starward/Features/GameRecord/StarRail/TrailblazeCalendarDetailPage.xaml.cs:277-288 | The name hook does nothing under the flag or for a stale name and leaves the flag as it found it. Otherwise it re-runs the filter, and no list or selection changes |
| Reentrant.SetName | src/Starward/Features/GameRecord/StarRail/TrailblazeCalendarDetailPage.xaml.cs:102-103 | Assigning the name stores it and leaves the flag as it found it. No list and no other selection changes |
| Reentrant.UpdateActionNamesPass | src/Starward/Features/GameRecord/StarRail/TrailblazeCalendarDetailPage.xaml.cs:412-501 | The name update leaves the flag as it found it |
| Reentrant.NamePassAgrees | src/Starward/Features/GameRecord/StarRail/TrailblazeCalendarDetailPage.xaml.cs:412-501 | With the flag up or down, the name update through the setters ends in the names and name `DetailPage.UpdateActionNames` computes |
| Reentrant.SetNameClean | src/Starward/Features/GameRecord/StarRail/TrailblazeCalendarDetailPage.xaml.cs:277-288 | Assigning a listed or null name on a page showing a listed or null month shows no stray selection |
| Reentrant.StaleNameIsShown | src/Starward/Features/GameRecord/StarRail/TrailblazeCalendarDetailPage.xaml.cs:277-288 | As written, a changed stale name is stored and shown before its hook rejects it, so the screen shows a stray name |
| Reentrant.NamePassClean | src/Starward/Features/GameRecord/StarRail/TrailblazeCalendarDetailPage.xaml.cs:412-501 | Whatever name it starts from, the name update shows no stray selection, because it clears the name before replacing the list |
| Reentrant.OnMonthChanged | src/Starward/Features/GameRecord/StarRail/TrailblazeCalendarDetailPage.xaml.cs:244-275 | The month hook always ends with the flag down. When it returns early, under the flag or for a stale month, nothing else changes and nothing more is shown |
| Reentrant.OnMonthChangedAgrees | src/Starward/Features/GameRecord/StarRail/TrailblazeCalendarDetailPage.xaml.cs:244-275 | A month hook that runs in full ends in the page that rebuilding the names and filtering computes |
| Reentrant.OnMonthChangedClean | src/Starward/Features/GameRecord/StarRail/TrailblazeCalendarDetailPage.xaml.cs:244-275 | The month hook shows no stray selection on a page that shows none |
| Reentrant.SetMonth | src/Starward/Features/GameRecord/StarRail/TrailblazeCalendarDetailPage.xaml.cs:96-97 | Assigning the current month does nothing. Assigning any other month always leaves the flag down, even under the flag |
| Reentrant.SetMonthClean | src/Starward/Features/GameRecord/StarRail/TrailblazeCalendarDetailPage.xaml.cs:244-275 | Assigning a listed or null month on a page showing a listed or null name shows no stray selection |
| Reentrant.StaleMonthIsShown | src/Starward/Features/GameRecord/StarRail/TrailblazeCalendarDetailPage.xaml.cs:244-275 | As written, a changed stale month is stored and shown before its hook rejects it, so the screen shows a stray month |
| Reentrant.MonthPassAgrees | src/Starward/Features/GameRecord/StarRail/TrailblazeCalendarDetailPage.xaml.cs:320-410 | Started under the flag or with no month selected, the month update ends with the flag down, in the lists and selections `DetailPage.UpdateMonthsAndNames` computes |
| Reentrant.NoStraySelectionDuringUpdate | src/Starward/Features/GameRecord/StarRail/TrailblazeCalendarDetailPage.xaml.cs:320-410 | No state the month update shows selects a month or name its list does not hold, even when the month starts out stale |
| Reentrant.OnYearChanged | src/Starward/Features/GameRecord/StarRail/TrailblazeCalendarDetailPage.xaml.cs:212-242 | The year hook always ends with the flag down. When it returns early, under the flag or for a stale year, nothing else changes and nothing more is shown |
| Reentrant.SetYear | src/Starward/Features/GameRecord/StarRail/TrailblazeCalendarDetailPage.xaml.cs:90-91 | Assigning the current year does nothing. Assigning any other year always leaves the flag down, even under the flag |
| Reentrant.ClickTypeTogglePass | src/Starward/Features/GameRecord/StarRail/TrailblazeCalendarDetailPage.xaml.cs:290-318 | A click under the flag, or one unchecking the current type, changes nothing |
| Reentrant.SetYearAgrees | src/Starward/Features/GameRecord/StarRail/TrailblazeCalendarDetailPage.xaml.cs:212-242 | With the flag down, assigning a year ends, flag down, in the page `DetailPage.SelectYear` computes |
| Reentrant.SetMonthAgrees | src/Starward/Features/GameRecord/StarRail/TrailblazeCalendarDetailPage.xaml.cs:244-275 | With the flag down, assigning a month ends, flag down, in the page `DetailPage.SelectMonth` computes |
| Reentrant.SetNameAgrees | src/Starward/Features/GameRecord/StarRail/TrailblazeCalendarDetailPage.xaml.cs:277-288 | With the flag down, assigning a name ends, flag down, in the page `DetailPage.SelectName` computes |
| Reentrant.ClickTypeToggleAgrees | src/Starward/Features/GameRecord/StarRail/TrailblazeCalendarDetailPage.xaml.cs:290-318 | With the flag down, a click ends, flag down, in the page `DetailPage.ClickTypeToggle` computes |
| Reentrant.SetYearClean | src/Starward/Features/GameRecord/StarRail/TrailblazeCalendarDetailPage.xaml.cs:212-242 | Assigning any year, stale or not, shows no stray month or name on a page that shows none |
| Reentrant.ClickTypeToggleClean | src/Starward/Features/GameRecord/StarRail/TrailblazeCalendarDetailPage.xaml.cs:290-318 | A type click shows no stray selection on a page that shows none |
| Reentrant.InitializeFiltersPass | src/Starward/Features/GameRecord/StarRail/TrailblazeCalendarDetailPage.xaml.cs:173-210 | Initializing the filters always ends with the flag down |
| Reentrant.EmptyInitializeAgrees | src/Starward/Features/GameRecord/StarRail/TrailblazeCalendarDetailPage.xaml.cs:177-186 | With no items and nothing selected, the three sentinel assignments end in the lists and selections `DetailPage.InitializeFilters` computes |
| Reentrant.InitializeAgrees | src/Starward/Features/GameRecord/StarRail/TrailblazeCalendarDetailPage.xaml.cs:188-199 | With items and no month selected, the year list, the year assignment and the update end in the lists and selections `DetailPage.InitializeFilters` computes |
| Reentrant.LoadPassAgrees | src/Starward/Features/GameRecord/StarRail/TrailblazeCalendarDetailPage.xaml.cs:120-137 | A load onto a freshly navigated page ends, flag down, in the page `DetailPage.Load` computes |
| Reentrant.LoadPassClean | src/Starward/Features/GameRecord/StarRail/TrailblazeCalendarDetailPage.xaml.cs:120-137 | No state a load onto a freshly navigated page shows selects a month or name its list does not hold |

`Consistent` is the page invariant. It says:
- the items are newest first;
- each option list is the one derived from the facets above it;
- each selection is null, empty or listed;
- the filtered items and total are those of the current facets.

The item has the fields the page reads from
`src/Starward.Core/GameRecord/StarRail/TrailblazeCalendar/TrailblazeCalendarDetailItem.cs`
lines 27, 33, 37 and 40: `Type`, `ActionName`, `Time` and `Number`.

## Left out

- Loading from the game record service, the delay in `OnLoaded`, and the nulling in
  `OnUnloaded` are I/O and lifecycle. `DetailPage.Load` takes the loaded list as a
  parameter. A failed load, which leaves an empty list, is the same as loading no items.
- Only a load onto a freshly navigated page is modelled. `OnUnloaded` keeps the
  selections, so a second `OnLoaded` restores a kept month or name that is still listed.
  With the flag down and a month selected, the month hook fired by clearing the month
  then runs in full. That path is not modelled.
- `DetailPage` collapses each handler into one transition. `Reentrant` shows the states
  in between and proves that the collapsed transitions agree with them.
- `Reentrant` shows the filtered items and the total as one assignment. The page assigns
  them one after the other; neither is part of `Reentrant.NoStraySelection`.
- Reentrant.NoStraySelection: covers the month and the name only. The year is left out,
  so a stale year, which the year setter stores off its list, is not counted as stray.
- COM-exception logging, the rethrows and the catch-all fallbacks of the update methods
  are UI interop. The fallback of `ApplyFilters` is kept, because a checked-sum overflow
  reaches it.
- Navigation-parameter unpacking, `PageTitle`, `IconPath`, `IsEmptyState`,
  `IsStellarJadeSelected`, `IsPassSelected` and `BackButton_Click` are display glue.
- Reading the toggle's tag with `int.TryParse`: `ClickTypeToggle` receives the parsed
  type. A tag that does not parse makes the click do nothing.
- The toggle's three-state `IsChecked` (null) is not modelled: it is a `bool`. Null is
  not `false`, so a null click behaves like `true`.
- The state before the first load, when the option lists are null and every guard
  admits any value, is not modelled.
- The localized sentinels are the constructor `All`, not strings. An item named like
  the localized "all" text would not collide with it here, as it would on the page.
- One `All` stands for all three sentinels: all years, all months and all names. On the
  page, a year set to the months' or the names' sentinel text is stale. Here it is the
  year's own sentinel and is admitted.
- `Time.ToString("MM")` formats the month in the current culture's calendar, but the
  filter compares `Time.Month`, which is Gregorian. The model assumes a Gregorian current
  calendar: `Facets.MonthKey` and the filter both use the item's `month`. Under a culture
  with another calendar, such as Um Al-Qura under ar-SA, the month labels listed would
  not match what the filter selects.
- Culture-sensitive string comparison in `OrderBy` and `OrderByDescending` is modelled
  as ordinal order. The proofs use only its strict-total-order lemmas.
- `int.TryParse` is modelled for the invariant culture's plain integer style. Trailing
  NUL characters and culture-specific sign symbols are not modelled.
- `Time` is an abstract ordered key with its year (1 to 9999) and month (1 to 12)
  alongside. That these agree with a real `DateTime` is not modelled.
- A null `ActionName` is the empty string: both are left out of the name list and
  compare the same way in the filter.
- Numerals.IntText: states only that the text is non-empty. Its round trip is stated by
  `Numerals.ParseIntText`.
- Numerals.ParseInt32: states only that a result fits an `int`. What it accepts is stated
  through `Numerals.ParseIntText`, `Numerals.ParsePad2` and
  `Numerals.ParseMonthLabelRoundTrip`.

## Findings

| source | as written | input that shows it | evidently intended | confidence | as-written member | corrected member |
|---|---|---|---|---|---|---|
| src/Starward/Features/GameRecord/StarRail/TrailblazeCalendarDetailPage.xaml.cs:218-222 | The guard in `OnSelectedYearChanged` returns early, but the generated setter has already stored the stale year | Load no items, so the year list is just "all", then set `SelectedYear` to "2024": it stays "2024", which the list does not offer | A value not in the list is ignored and the selection is left as it was | medium, not executed | DetailPage.StaleYearIsStored, DetailPage.StaleYearExample | DetailPage.SelectYearIgnoringStale, DetailPage.IgnoringStaleKeepsConsistent |
| src/Starward/Features/GameRecord/StarRail/TrailblazeCalendarDetailPage.xaml.cs:250-254 | The same for `OnSelectedMonthChanged`: the stale month is stored | On a consistent page, set `SelectedMonth` to any non-empty label missing from the month list | The same | medium, not executed | DetailPage.StaleMonthIsStored, Reentrant.StaleMonthIsShown | DetailPage.SelectMonthIgnoringStale, DetailPage.IgnoringStaleKeepsConsistent |
| src/Starward/Features/GameRecord/StarRail/TrailblazeCalendarDetailPage.xaml.cs:281-285 | The same for `OnSelectedActionNameChanged`: the stale name is stored | On a consistent page, set `SelectedActionName` to any non-empty name missing from the name list | The same | medium, not executed | DetailPage.StaleNameIsStored, Reentrant.StaleNameIsShown | DetailPage.SelectNameIgnoringStale, DetailPage.IgnoringStaleKeepsConsistent |

The user-event machine `DetailPage.Step` / `DetailPage.Run` uses the corrected handlers.
The as-written handlers keep the page consistent for every value their guard admits
(`DetailPage.SelectYearKeepsConsistent` and its siblings).

=== FILE: detail_page.dfy ===
/** The filter engine of the Trailblaze Calendar detail page: the page's observable
    state, the clear-replace-restore updates of the month and name lists, the filter and
    total pass, the load, and one transition per change handler. */
module DetailPage {
  import opened Numerals
  import opened Ledger
  import opened Facets

  /** The page's observable properties: `AllDetailItems`, `SelectedDetailType`,
      `AvailableYears`/`SelectedYear`, `AvailableMonths`/`SelectedMonth`,
      `ActionNames`/`SelectedActionName`, `FilteredDetailItems` and `TotalAmount`. */
  datatype Page = Page(
    items: seq<Item>,
    typ: int,
    years: seq<Choice>, year: Choice,
    months: seq<Choice>, month: Choice,
    names: seq<Choice>, name: Choice,
    filtered: seq<Item>,
    total: int)

  function QueryOf(p: Page): Query {
    Query(p.typ, p.year, p.month, p.name)
  }

  /** `RecordCount`: the number of filtered items. */
  function RecordCount(p: Page): nat {
    |p.filtered|
  }

  /** The restore step: the previous value when it is non-empty and still offered,
      otherwise the first option. */
  function Restore(previous: Choice, options: seq<Choice>): (c: Choice)
    requires |options| > 0
    ensures c in options
  {
    if !IsNullOrEmpty(previous) && previous in options then previous else options[0]
  }

  // ---- Clear, replace, restore -------------------------------------------------------

  /** `UpdateActionNames`: rebuilds the name list from the type, year and month, keeps the
      selected name if it is non-empty and still listed, and falls back to "all". The
      source clears the selection before it replaces the list; the states it passes
      through on the way, and the change hooks they fire, are modelled in `Reentrant`. */
  function UpdateActionNames(p: Page): (r: Page)
    ensures r.names == NameOptions(p.items, p.typ, p.year, p.month)
    ensures r.name in r.names
    ensures !IsNullOrEmpty(p.name) && p.name in r.names ==> r.name == p.name
    ensures IsNullOrEmpty(p.name) || p.name !in r.names ==> r.name == All
    ensures r == p.(names := r.names, name := r.name)
  {
    var options := NameOptions(p.items, p.typ, p.year, p.month);
    p.(names := options, name := Restore(p.name, options))
  }

  /** `UpdateMonthsAndNames`: rebuilds the month list from the type and year, restores
      or resets the month, then does the same for the names under the settled month. */
  function UpdateMonthsAndNames(p: Page): (r: Page)
    ensures r.months == MonthOptions(p.items, p.typ, p.year)
    ensures r.month in r.months
    ensures !IsNullOrEmpty(p.month) && p.month in r.months ==> r.month == p.month
    ensures IsNullOrEmpty(p.month) || p.month !in r.months ==> r.month == All
    ensures r.names == NameOptions(p.items, p.typ, p.year, r.month)
    ensures r.name in r.names
    ensures !IsNullOrEmpty(p.name) && p.name in r.names ==> r.name == p.name
    ensures IsNullOrEmpty(p.name) || p.name !in r.names ==> r.name == All
    ensures r == p.(months := r.months, month := r.month, names := r.names, name := r.name)
  {
    var options := MonthOptions(p.items, p.typ, p.year);
    UpdateActionNames(p.(months := options, month := Restore(p.month, options)))
  }

  /** Rebuilding the names a second time changes nothing: the restored name is always a
      non-empty entry of the list it is restored into. */
  lemma UpdateActionNamesIdempotent(p: Page)
    ensures UpdateActionNames(UpdateActionNames(p)) == UpdateActionNames(p)
  {
    var u := UpdateActionNames(p);
    assert OptionList(u.names);
    assert !IsNullOrEmpty(u.name);
  }

  /** When no item has the selected type and year, the month and name lists shrink to
      their sentinels and both selections fall back to it. */
  lemma EmptyPoolResetsSelections(p: Page)
    requires |MonthPool(p.items, p.typ, p.year)| == 0
    ensures var r := UpdateMonthsAndNames(p);
      r.months == [All] && r.month == All && r.names == [All] && r.name == All
  {
    var r := UpdateMonthsAndNames(p);
    KeepNarrower(p.items, Query(p.typ, p.year, Null, Null), Query(p.typ, p.year, r.month, Null));
  }

  // ---- Filter and total --------------------------------------------------------------

  /** `ApplyFilters`: the items matching every facet, in list order, and the checked sum
      of their `Number`; an overflowing sum lands in the handler's fallback, which shows
      no items and a total of 0. */
  function ApplyFilters(p: Page): (r: Page)
    ensures r == p.(filtered := r.filtered, total := r.total)
    ensures r.total == Sum(r.filtered)
    ensures IsSubsequence(r.filtered, p.items)
    ensures forall i :: 0 <= i < |r.filtered| ==> Matches(QueryOf(p), r.filtered[i])
    ensures |p.items| == 0 ==> r.filtered == [] && r.total == 0
  {
    if |p.items| == 0 then
      p.(filtered := [], total := 0)
    else
      var kept := Keep(p.items, QueryOf(p));
      CheckedSumSpec(kept);
      match CheckedSum(kept)
      case None => p.(filtered := [], total := 0)
      case Some(t) => p.(filtered := kept, total := t)
  }

  /** The filtered items are exactly the matching ones, their total is the sum of their
      `Number` and `RecordCount` their number, unless a running total overflows `int`. */
  lemma ApplyFiltersSpec(p: Page)
    ensures var r := ApplyFilters(p);
      var kept := Keep(p.items, QueryOf(p));
      && (PrefixSumsFit(kept) ==> r.filtered == kept && r.total == Sum(kept) && RecordCount(r) == |kept|)
      && (PrefixSumsFit(kept) ==> forall x :: x in r.filtered <==> x in p.items && Matches(QueryOf(p), x))
      && (!PrefixSumsFit(kept) ==> r.filtered == [] && r.total == 0 && RecordCount(r) == 0)
  {
    var kept := Keep(p.items, QueryOf(p));
    CheckedSumSpec(kept);
    forall x
      ensures x in kept <==> x in p.items && Matches(QueryOf(p), x)
    {
      KeepMembership(p.items, QueryOf(p), x);
    }
  }

  /** Filtering keeps the newest-first order of the loaded list. */
  lemma FilteredNewestFirst(p: Page)
    requires TimeDescending(p.items)
    ensures TimeDescending(ApplyFilters(p).filtered)
  {
    KeepKeepsTimeOrder(p.items, QueryOf(p));
  }

  lemma ApplyFiltersIdempotent(p: Page)
    ensures ApplyFilters(ApplyFilters(p)) == ApplyFilters(p)
  {
    var r := ApplyFilters(p);
    assert QueryOf(r) == QueryOf(p) && r.items == p.items;
  }

  /** Two pages that differ at most in the filtered items and the total: the facets, the
      lists and the selections agree. */
  predicate SameFacets(a: Page, b: Page) {
    a.(filtered := b.filtered, total := b.total) == b
  }

  /** The filter pass reads only the facets, so it cannot tell such pages apart. */
  lemma ApplyFiltersReadsFacets(a: Page, b: Page)
    requires SameFacets(a, b)
    ensures ApplyFilters(a) == ApplyFilters(b)
  {
    assert a.items == b.items && QueryOf(a) == QueryOf(b);
  }

  // ---- Load --------------------------------------------------------------------------

  /** `InitializeFilters`: the year list from all items with "all" selected, then the
      month and name lists; every list is just its sentinel when there are no items. */
  function InitializeFilters(p: Page): Page {
    if |p.items| == 0 then
      p.(years := [All], year := All, months := [All], month := All, names := [All], name := All)
    else
      var years := YearOptions(p.items);
      UpdateMonthsAndNames(p.(years := years, year := years[0]))
  }

  /** The page as first navigated to: nothing selected, no list, nothing shown. */
  function Blank(typ: int, items: seq<Item>): Page {
    Page(items, typ, [], Null, [], Null, [], Null, [], 0)
  }

  /** `InitializeDataAsync` on a freshly navigated page: the loaded items sorted newest
      first, the filters initialized, the filters applied. */
  function Load(typ: int, loaded: seq<Item>): Page {
    var blank := Blank(typ, SortByTimeDesc(loaded));
    ApplyFilters(InitializeFilters(blank))
  }

  /** The page is settled: items newest first, every list derived from the facets above
      it, every selection one its change handler's guard admits, and the filtered items
      and total those of the current facets. */
  predicate Consistent(p: Page) {
    && TimeDescending(p.items)
    && p.years == YearOptions(p.items)
    && p.months == MonthOptions(p.items, p.typ, p.year)
    && p.names == NameOptions(p.items, p.typ, p.year, p.month)
    && Admits(p.years, p.year)
    && Admits(p.months, p.month)
    && Admits(p.names, p.name)
    && ApplyFilters(p) == p
  }

  /** A load leaves the page settled with every facet on "all"; with no items, every list
      is just its sentinel and there is nothing to show. */
  lemma LoadSpec(typ: int, loaded: seq<Item>)
    ensures var r := Load(typ, loaded);
      && Consistent(r)
      && r.typ == typ
      && multiset(r.items) == multiset(loaded)
      && r.year == All && r.month == All && r.name == All
      && (|loaded| == 0 ==>
            r.years == [All] && r.months == [All] && r.names == [All]
            && r.filtered == [] && r.total == 0)
  {
    var blank := Blank(typ, SortByTimeDesc(loaded));
    var init := InitializeFilters(blank);
    ApplyFiltersIdempotent(init);
    if |blank.items| == 0 {
      assert YearOptions(blank.items) == [All];
      assert MonthOptions(blank.items, typ, All) == [All];
      assert NameOptions(blank.items, typ, All, All) == [All];
    }
    if |loaded| == 0 {
      assert |blank.items| == 0;
    }
  }

  // ---- Change handlers ---------------------------------------------------------------

  /** Setting `SelectedYear` to `v`: the generated setter does nothing for an unchanged
      value, otherwise stores `v` and runs `OnSelectedYearChanged`, whose guard skips the
      recomputation for a non-empty value the year list does not hold. */
  function SelectYear(p: Page, v: Choice): (r: Page)
    ensures v == p.year ==> r == p
    ensures v != p.year ==> r.year == v && r.years == p.years && r.typ == p.typ && r.items == p.items
    ensures v != p.year && !Admits(p.years, v) ==> r == p.(year := v)
    ensures v != p.year && Admits(p.years, v) ==>
      && r.months == MonthOptions(p.items, p.typ, v)
      && r.month in r.months
      && r.names == NameOptions(p.items, p.typ, v, r.month)
      && r.name in r.names
  {
    if v == p.year then p
    else
      var stored := p.(year := v);
      if Admits(p.years, v) then ApplyFilters(UpdateMonthsAndNames(stored)) else stored
  }

  /** Setting `SelectedMonth` to `v`: as for the year, but only the name list is rebuilt. */
  function SelectMonth(p: Page, v: Choice): (r: Page)
    ensures r == p.(month := v, names := r.names, name := r.name, filtered := r.filtered, total := r.total)
    ensures v == p.month ==> r == p
    ensures v != p.month ==> r.month == v && r.months == p.months && r.year == p.year && r.typ == p.typ
    ensures v != p.month && !Admits(p.months, v) ==> r == p.(month := v)
    ensures v != p.month && Admits(p.months, v) ==>
      && r.names == NameOptions(p.items, p.typ, p.year, v)
      && r.name in r.names
  {
    if v == p.month then p
    else
      var stored := p.(month := v);
      if Admits(p.months, v) then ApplyFilters(UpdateActionNames(stored)) else stored
  }

  /** Setting `SelectedActionName` to `v`: no list depends on the name, so an admitted
      value only re-runs the filter. */
  function SelectName(p: Page, v: Choice): (r: Page)
    ensures r == p.(name := v, filtered := r.filtered, total := r.total)
    ensures v == p.name ==> r == p
    ensures v != p.name ==> r.name == v && r.names == p.names && r.months == p.months && r.month == p.month
    ensures v != p.name && !Admits(p.names, v) ==> r == p.(name := v)
    ensures v != p.name && Admits(p.names, v) ==> r.filtered == ApplyFilters(p.(name := v)).filtered
  {
    if v == p.name then p
    else
      var stored := p.(name := v);
      if Admits(p.names, v) then ApplyFilters(stored) else stored
  }

  /** `TypeToggleButton_Click` on the button for `typ`, which is now checked or not:
      unchecking the current type is refused; otherwise the type is set and the month and
      name lists are rebuilt. The year list does not depend on the type and is kept. */
  function ClickTypeToggle(p: Page, typ: int, isChecked: bool): (r: Page)
    ensures !isChecked && typ == p.typ ==> r == p
    ensures r.years == p.years && r.year == p.year && r.items == p.items
    ensures isChecked || typ != p.typ ==>
      && r.typ == typ
      && r.months == MonthOptions(p.items, typ, p.year)
      && r.month in r.months
      && r.names == NameOptions(p.items, typ, p.year, r.month)
      && r.name in r.names
  {
    if !isChecked && typ == p.typ then p
    else ApplyFilters(UpdateMonthsAndNames(p.(typ := typ)))
  }

  // ---- The page stays settled --------------------------------------------------------

  lemma SelectYearKeepsConsistent(p: Page, v: Choice)
    requires Consistent(p) && Admits(p.years, v)
    ensures Consistent(SelectYear(p, v))
  {
    if v != p.year {
      ApplyFiltersIdempotent(UpdateMonthsAndNames(p.(year := v)));
    }
  }

  lemma SelectMonthKeepsConsistent(p: Page, v: Choice)
    requires Consistent(p) && Admits(p.months, v)
    ensures Consistent(SelectMonth(p, v))
  {
    if v != p.month {
      ApplyFiltersIdempotent(UpdateActionNames(p.(month := v)));
    }
  }

  lemma SelectNameKeepsConsistent(p: Page, v: Choice)
    requires Consistent(p) && Admits(p.names, v)
    ensures Consistent(SelectName(p, v))
  {
    if v != p.name {
      ApplyFiltersIdempotent(p.(name := v));
    }
  }

  lemma ClickTypeToggleKeepsConsistent(p: Page, typ: int, isChecked: bool)
    requires Consistent(p)
    ensures Consistent(ClickTypeToggle(p, typ, isChecked))
  {
    if isChecked || typ != p.typ {
      ApplyFiltersIdempotent(UpdateMonthsAndNames(p.(typ := typ)));
    }
  }

  /** An entry of an option list restores to itself: it is the sentinel or a non-empty
      label, never null or empty. */
  lemma RestoreKeepsListed(c: Choice, options: seq<Choice>)
    requires OptionList(options) && c in options
    ensures Restore(c, options) == c
  {
    var i :| 0 <= i < |options| && options[i] == c;
    assert i == 0 || options[i].Text?;
  }

  /** Rebuilding the lists of a page whose lists are already the rebuilt ones, with a
      month and a name picked from them, restores the same month and name. */
  lemma RebuildKeepsListedSelections(p: Page)
    requires p.months == MonthOptions(p.items, p.typ, p.year)
    requires p.names == NameOptions(p.items, p.typ, p.year, p.month)
    requires p.month in p.months && p.name in p.names
    ensures UpdateMonthsAndNames(p) == p
  {
    RestoreKeepsListed(p.month, p.months);
    RestoreKeepsListed(p.name, p.names);
    assert UpdateActionNames(p) == p;
  }

  /** Re-selecting the current type on a settled page, with a month and a name picked from
      their lists, rebuilds the same lists and restores the same month and name. */
  lemma ReselectTypeIsNoOp(p: Page)
    requires Consistent(p) && p.month in p.months && p.name in p.names
    ensures ClickTypeToggle(p, p.typ, true) == p
  {
    RebuildKeepsListedSelections(p);
    assert p.(typ := p.typ) == p;
  }

  // ---- Stale values ------------------------------------------------------------------

  /** As written, the generated setter stores a stale year before the handler's guard
      looks at it, so the guard only skips the recomputation: the page is left selecting a
      year its list does not hold, with months and names derived from the previous year. */
  lemma StaleYearIsStored(p: Page, v: Choice)
    requires Consistent(p) && !Admits(p.years, v)
    ensures var r := SelectYear(p, v);
      r.year == v && !Admits(r.years, r.year) && !Consistent(r)
  {
  }

  lemma StaleMonthIsStored(p: Page, v: Choice)
    requires Consistent(p) && !Admits(p.months, v)
    ensures var r := SelectMonth(p, v);
      r.month == v && !Admits(r.months, r.month) && !Consistent(r)
  {
  }

  lemma StaleNameIsStored(p: Page, v: Choice)
    requires Consistent(p) && !Admits(p.names, v)
    ensures var r := SelectName(p, v);
      r.name == v && !Admits(r.names, r.name) && !Consistent(r)
  {
  }

  /** A concrete case: a page loaded with no items offers only "all" years, and setting
      the year to "2024" stores it anyway. */
  lemma StaleYearExample()
    ensures var p := Load(1, []);
      var r := SelectYear(p, Text("2024"));
      && p.years == [All]
      && r.year == Text("2024")
      && !Consistent(r)
  {
    LoadSpec(1, []);
    StaleYearIsStored(Load(1, []), Text("2024"));
  }

  /** The handlers as their guards intend: a value the guard rejects leaves the page as
      it was. */
  function SelectYearIgnoringStale(p: Page, v: Choice): (r: Page)
    ensures !Admits(p.years, v) ==> r == p
    ensures Admits(p.years, v) ==> r.year == v && r.years == p.years && r.typ == p.typ && r.items == p.items
    ensures Admits(p.years, v) && v != p.year ==>
      && r.months == MonthOptions(p.items, p.typ, v)
      && r.month in r.months
      && r.names == NameOptions(p.items, p.typ, v, r.month)
      && r.name in r.names
  {
    if Admits(p.years, v) then SelectYear(p, v) else p
  }

  function SelectMonthIgnoringStale(p: Page, v: Choice): (r: Page)
    ensures !Admits(p.months, v) ==> r == p
    ensures Admits(p.months, v) ==>
      r == p.(month := v, names := r.names, name := r.name, filtered := r.filtered, total := r.total)
    ensures Admits(p.months, v) ==> r.month == v && r.months == p.months && r.year == p.year && r.typ == p.typ
    ensures Admits(p.months, v) && v != p.month ==>
      && r.names == NameOptions(p.items, p.typ, p.year, v)
      && r.name in r.names
  {
    if Admits(p.months, v) then SelectMonth(p, v) else p
  }

  function SelectNameIgnoringStale(p: Page, v: Choice): (r: Page)
    ensures !Admits(p.names, v) ==> r == p
    ensures Admits(p.names, v) ==> r == p.(name := v, filtered := r.filtered, total := r.total)
    ensures Admits(p.names, v) ==>
      r.name == v && r.names == p.names && r.month == p.month && r.year == p.year && r.typ == p.typ
    ensures Admits(p.names, v) && v != p.name ==>
      && r.total == Sum(r.filtered)
      && forall i :: 0 <= i < |r.filtered| ==> Matches(Query(p.typ, p.year, p.month, v), r.filtered[i])
  {
    if Admits(p.names, v) then SelectName(p, v) else p
  }

  /** With stale values ignored, every handler keeps the page settled, whatever value it
      is given. */
  lemma IgnoringStaleKeepsConsistent(p: Page, v: Choice)
    requires Consistent(p)
    ensures Consistent(SelectYearIgnoringStale(p, v))
    ensures Consistent(SelectMonthIgnoringStale(p, v))
    ensures Consistent(SelectNameIgnoringStale(p, v))
  {
    if Admits(p.years, v) { SelectYearKeepsConsistent(p, v); }
    if Admits(p.months, v) { SelectMonthKeepsConsistent(p, v); }
    if Admits(p.names, v) { SelectNameKeepsConsistent(p, v); }
  }

  /** What the user can do on the page. */
  datatype Event =
    | YearPicked(year: Choice)
    | MonthPicked(month: Choice)
    | NamePicked(name: Choice)
    | TypeClicked(typ: int, isChecked: bool)

  function Step(p: Page, e: Event): Page {
    match e
    case YearPicked(v) => SelectYearIgnoringStale(p, v)
    case MonthPicked(v) => SelectMonthIgnoringStale(p, v)
    case NamePicked(v) => SelectNameIgnoringStale(p, v)
    case TypeClicked(typ, isChecked) => ClickTypeToggle(p, typ, isChecked)
  }

  function Run(p: Page, events: seq<Event>): Page
    decreases |events|
  {
    if |events| == 0 then p else Run(Step(p, events[0]), events[1..])
  }

  lemma StepKeepsConsistent(p: Page, e: Event)
    requires Consistent(p)
    ensures Consistent(Step(p, e))
  {
    match e
    case YearPicked(v) => IgnoringStaleKeepsConsistent(p, v);
    case MonthPicked(v) => IgnoringStaleKeepsConsistent(p, v);
    case NamePicked(v) => IgnoringStaleKeepsConsistent(p, v);
    case TypeClicked(typ, isChecked) => ClickTypeToggleKeepsConsistent(p, typ, isChecked);
  }

  /** Any sequence of user events, stale values included, keeps a settled page settled. */
  lemma {:induction false} RunKeepsConsistent(p: Page, events: seq<Event>)
    requires Consistent(p)
    ensures Consistent(Run(p, events))
    decreases |events|
  {
    if |events| > 0 {
      StepKeepsConsistent(p, events[0]);
      RunKeepsConsistent(Step(p, events[0]), events[1..]);
    }
  }

  /** From the load on, whatever the user does, every selection is one its guard admits,
      every list matches the facets above it, and the total is the sum of what is shown. */
  lemma SessionStaysConsistent(typ: int, loaded: seq<Item>, events: seq<Event>)
    ensures var r := Run(Load(typ, loaded), events);
      && Consistent(r)
      && r.total == Sum(r.filtered)
  {
    LoadSpec(typ, loaded);
    RunKeepsConsistent(Load(typ, loaded), events);
  }
}

=== FILE: facets.dfy ===
/** The four facets of the detail page (type, year, month, action name), the filter they
    define over the item list, and the option list each of the year, month and name
    drop-downs offers. */
module Facets {
  import opened Numerals
  import opened Ordering
  import opened Ledger

  /** A facet value as the page holds it: `null`, the localized "all" sentinel, or a
      label. The sentinel is a constructor of its own, so no label can be mistaken for it. */
  datatype Choice = Null | All | Text(s: string)

  /** `string.IsNullOrEmpty`. */
  predicate IsNullOrEmpty(c: Choice) {
    c.Null? || (c.Text? && c.s == "")
  }

  /** A null or empty value counts as "all", like the sentinel itself. */
  predicate Unfiltered(c: Choice) {
    IsNullOrEmpty(c) || c.All?
  }

  /** The stale-value guard of a change handler lets `v` through: it is null or empty,
      or it is one of the current options. */
  predicate Admits(options: seq<Choice>, v: Choice) {
    IsNullOrEmpty(v) || v in options
  }

  /** An option list: the sentinel first, then non-empty labels. */
  predicate OptionList(options: seq<Choice>) {
    && |options| >= 1
    && options[0] == All
    && forall i :: 1 <= i < |options| ==> options[i].Text? && options[i].s != ""
  }

  /** `Time.Year.ToString()`. */
  function YearText(y: YearNumber): string {
    DecimalText(y)
  }

  /** `Time.ToString("MM")`. */
  function MonthKey(m: MonthOfYear): string {
    Pad2(m)
  }

  /** The facet values a filter pass reads. */
  datatype Query = Query(typ: int, year: Choice, month: Choice, name: Choice)

  /** The month number the month facet restricts to: none when the facet is unfiltered
      or its label does not parse once the suffix is stripped. */
  function MonthFacet(c: Choice): Option<int> {
    if Unfiltered(c) then None else ParseMonthLabel(c.s)
  }

  /** The chain of `Where` clauses: the type always, then each facet that is not "all". */
  predicate Matches(q: Query, it: Item) {
    && it.typ == q.typ
    && (Unfiltered(q.year) || YearText(it.year) == q.year.s)
    && (match MonthFacet(q.month)
        case None => true
        case Some(n) => it.month == n)
    && (Unfiltered(q.name) || it.name == q.name.s)
  }

  /** `a` is `b` with some elements left out, the rest in the same order. */
  predicate IsSubsequence(a: seq<Item>, b: seq<Item>)
    decreases |b|
  {
    if |a| == 0 then true
    else if |b| == 0 then false
    else if a[0] == b[0] then IsSubsequence(a[1..], b[1..])
    else IsSubsequence(a, b[1..])
  }

  /** The items matching `q`, in list order. */
  function Keep(items: seq<Item>, q: Query): (r: seq<Item>)
    ensures forall i :: 0 <= i < |r| ==> Matches(q, r[i])
    ensures IsSubsequence(r, items)
    ensures forall x :: multiset(r)[x] == if Matches(q, x) then multiset(items)[x] else 0
  {
    if |items| == 0 then []
    else
      var rest := Keep(items[1..], q);
      assert items == [items[0]] + items[1..];
      if Matches(q, items[0]) then
        assert ([items[0]] + rest)[1..] == rest;
        [items[0]] + rest
      else
        rest
  }

  /** No item of `s` is newer than `t`. */
  predicate NoNewerThan(s: seq<Item>, t: int) {
    forall i :: 0 <= i < |s| ==> s[i].time <= t
  }

  lemma {:induction false} KeepNoNewer(items: seq<Item>, q: Query, t: int)
    requires NoNewerThan(items, t)
    ensures NoNewerThan(Keep(items, q), t)
    decreases |items|
  {
    if |items| > 0 {
      assert forall i :: 0 <= i < |items[1..]| ==> items[1..][i] == items[i + 1];
      KeepNoNewer(items[1..], q, t);
    }
  }

  lemma {:induction false} KeepKeepsTimeOrder(items: seq<Item>, q: Query)
    requires TimeDescending(items)
    ensures TimeDescending(Keep(items, q))
    decreases |items|
  {
    if |items| > 0 {
      var rest := Keep(items[1..], q);
      KeepKeepsTimeOrder(items[1..], q);
      if Matches(q, items[0]) {
        assert forall i :: 0 <= i < |items[1..]| ==> items[1..][i] == items[i + 1];
        KeepNoNewer(items[1..], q, items[0].time);
        var r := [items[0]] + rest;
        assert Keep(items, q) == r;
        forall i, j | 0 <= i < j < |r|
          ensures r[j].time <= r[i].time
        {
          assert r[j] == rest[j - 1];
          if i > 0 {
            assert r[i] == rest[i - 1];
          }
        }
      }
    }
  }

  /** An item is kept exactly when it is in the list and matches. */
  lemma KeepMembership(items: seq<Item>, q: Query, x: Item)
    ensures x in Keep(items, q) <==> x in items && Matches(q, x)
  {
    assert x in Keep(items, q) <==> x in multiset(Keep(items, q));
    assert x in items <==> x in multiset(items);
  }

  /** A query that admits fewer items keeps fewer items. */
  lemma {:induction false} KeepNarrower(items: seq<Item>, wide: Query, narrow: Query)
    requires forall x :: Matches(narrow, x) ==> Matches(wide, x)
    ensures |Keep(items, narrow)| <= |Keep(items, wide)|
    decreases |items|
  {
    if |items| > 0 {
      KeepNarrower(items[1..], wide, narrow);
    }
  }

  /** Each key as a label. */
  function Labelled(keys: seq<string>): (r: seq<Choice>)
    ensures |r| == |keys|
    ensures forall i :: 0 <= i < |keys| ==> r[i] == Text(keys[i])
  {
    seq(|keys|, i requires 0 <= i < |keys| => Text(keys[i]))
  }

  // ---- Years -------------------------------------------------------------------------

  /** `Time.Year.ToString()` of every item, in list order. */
  function YearTexts(items: seq<Item>): (r: seq<string>)
    ensures |r| == |items|
    ensures forall k :: 0 <= k < |items| ==> r[k] == YearText(items[k].year)
  {
    seq(|items|, i requires 0 <= i < |items| => YearText(items[i].year))
  }

  /** The years of all items, whatever their type: distinct, descending, after "all". */
  function YearOptions(items: seq<Item>): (r: seq<Choice>)
    ensures OptionList(r)
  {
    var texts := YearTexts(items);
    var keys := SortDistinct(Descending, texts);
    forall i | 0 <= i < |keys|
      ensures keys[i] != ""
    {
      assert keys[i] in keys;
      var k :| 0 <= k < |texts| && texts[k] == keys[i];
    }
    [All] + Labelled(keys)
  }

  // ---- Months ------------------------------------------------------------------------

  /** The items the month list is taken from: the selected type and year. */
  function MonthPool(items: seq<Item>, typ: int, year: Choice): seq<Item> {
    Keep(items, Query(typ, year, Null, Null))
  }

  /** `Time.ToString("MM")` of every item, in list order. */
  function MonthKeys(pool: seq<Item>): (r: seq<string>)
    ensures |r| == |pool|
    ensures forall k :: 0 <= k < |pool| ==> r[k] == MonthKey(pool[k].month)
  {
    seq(|pool|, i requires 0 <= i < |pool| => MonthKey(pool[i].month))
  }

  /** `months.Select(m => $"{int.Parse(m)}月")`; `None` where a key does not parse, which
      lands in the handler's fallback. */
  function RelabelMonths(keys: seq<string>): (r: Option<seq<Choice>>)
    ensures r.Some? ==> |r.value| == |keys|
    ensures r.Some? ==> forall i :: 0 <= i < |keys| ==>
      ParseInt32(keys[i]).Some? && r.value[i] == Text(MonthLabel(ParseInt32(keys[i]).value))
    ensures (forall i :: 0 <= i < |keys| ==> ParseInt32(keys[i]).Some?) ==> r.Some?
  {
    if |keys| == 0 then Some([])
    else
      match ParseInt32(keys[0])
      case None => None
      case Some(n) =>
        assert forall i :: 1 <= i < |keys| ==> keys[1..][i - 1] == keys[i];
        match RelabelMonths(keys[1..])
        case None => None
        case Some(rest) => Some([Text(MonthLabel(n))] + rest)
  }

  /** The months of the type-and-year pool, newest first by their `"MM"` key, relabelled
      `n月`, after "all"; just "all" when there are no items or no pool. */
  function MonthOptions(items: seq<Item>, typ: int, year: Choice): (r: seq<Choice>)
    ensures OptionList(r)
  {
    if |items| == 0 then [All]
    else
      var pool := MonthPool(items, typ, year);
      if |pool| == 0 then [All]
      else
        var keys := SortDistinct(Descending, MonthKeys(pool));
        match RelabelMonths(keys)
        case None => [All]
        case Some(labels) => [All] + labels
  }

  // ---- Action names ------------------------------------------------------------------

  /** The items the name list is taken from: the selected type, year and month. */
  function NamePool(items: seq<Item>, typ: int, year: Choice, month: Choice): seq<Item> {
    Keep(items, Query(typ, year, month, Null))
  }

  /** The non-empty action names of `s`, with repeats. */
  function NamesOf(s: seq<Item>): (r: seq<string>)
    ensures forall y :: y in r <==> y != "" && exists k :: 0 <= k < |s| && s[k].name == y
  {
    if |s| == 0 then []
    else
      var rest := NamesOf(s[1..]);
      assert forall k :: 1 <= k < |s| ==> s[1..][k - 1] == s[k];
      if s[0].name != "" then [s[0].name] + rest else rest
  }

  /** The distinct non-empty names of the type, year and month pool, ascending, after
      "all". */
  function NameOptions(items: seq<Item>, typ: int, year: Choice, month: Choice): (r: seq<Choice>)
    ensures OptionList(r)
  {
    if |items| == 0 then [All]
    else
      var pool := NamePool(items, typ, year, month);
      var names := if |pool| > 0 then SortDistinct(Ascending, NamesOf(pool)) else [];
      assert forall i :: 0 <= i < |names| ==> names[i] in names;
      [All] + Labelled(names)
  }

  // ---- What the option lists hold ---------------------------------------------------

  /** The year list holds, after "all", exactly the year of every item of every type,
      each once, in descending order. */
  lemma YearOptionsSpec(items: seq<Item>)
    ensures var r := YearOptions(items);
      && (forall c :: c in r[1..] <==> exists k :: 0 <= k < |items| && c == Text(YearText(items[k].year)))
      && (forall i, j :: 1 <= i < j < |r| ==> LexLess(r[j].s, r[i].s))
  {
    var r := YearOptions(items);
    var texts := YearTexts(items);
    var keys := SortDistinct(Descending, texts);
    assert r == [All] + Labelled(keys);
    assert r[1..] == Labelled(keys);
    forall c
      ensures c in r[1..] <==> exists k :: 0 <= k < |items| && c == Text(YearText(items[k].year))
    {
      if c in r[1..] {
        var i :| 0 <= i < |keys| && r[1..][i] == c;
        assert keys[i] in keys;
        var k :| 0 <= k < |texts| && texts[k] == keys[i];
        assert c == Text(YearText(items[k].year));
      }
      if exists k :: 0 <= k < |items| && c == Text(YearText(items[k].year)) {
        var k :| 0 <= k < |items| && c == Text(YearText(items[k].year));
        assert texts[k] in texts;
        var i :| 0 <= i < |keys| && keys[i] == texts[k];
        assert r[1..][i] == c;
      }
    }
    forall i, j | 1 <= i < j < |r|
      ensures LexLess(r[j].s, r[i].s)
    {
      assert Precedes(Descending, keys[i - 1], keys[j - 1]);
    }
  }

  /** Every month key stands for a month of some item of the pool, and parses back to it. */
  lemma MonthOfKey(pool: seq<Item>, y: string) returns (m: MonthOfYear)
    requires y in MonthKeys(pool)
    ensures y == Pad2(m) && ParseInt32(y) == Some(m as int)
    ensures exists k :: 0 <= k < |pool| && pool[k].month == m
  {
    var k :| 0 <= k < |pool| && MonthKeys(pool)[k] == y;
    m := pool[k].month;
    ParsePad2(m);
  }

  /** Every month of the pool has its key among the sorted keys. */
  lemma KeysCoverPool(pool: seq<Item>, m: MonthOfYear) returns (i: nat)
    requires exists k :: 0 <= k < |pool| && pool[k].month == m
    ensures var keys := SortDistinct(Descending, MonthKeys(pool));
      i < |keys| && keys[i] == Pad2(m)
  {
    var keys := SortDistinct(Descending, MonthKeys(pool));
    var k :| 0 <= k < |pool| && pool[k].month == m;
    assert MonthKeys(pool)[k] in MonthKeys(pool);
    var j :| 0 <= j < |keys| && keys[j] == MonthKeys(pool)[k];
    i := j;
  }

  /** Months whose keys are in descending key order are themselves descending. */
  lemma DescendingKeysDescendingMonths(keys: seq<string>, months: seq<MonthOfYear>)
    requires Sorted(Descending, keys) && |months| == |keys|
    requires forall i :: 0 <= i < |keys| ==> keys[i] == Pad2(months[i])
    ensures forall i, j :: 0 <= i < j < |months| ==> months[j] < months[i]
  {
    forall i, j | 0 <= i < j < |months|
      ensures months[j] < months[i]
    {
      assert Precedes(Descending, keys[i], keys[j]);
      Pad2Order(months[j], months[i]);
    }
  }

  /** The months behind the sorted month keys, in key order. */
  lemma KeyMonths(pool: seq<Item>) returns (months: seq<MonthOfYear>)
    ensures var keys := SortDistinct(Descending, MonthKeys(pool));
      && |months| == |keys|
      && (forall i :: 0 <= i < |keys| ==> keys[i] == Pad2(months[i]) && ParseInt32(keys[i]) == Some(months[i] as int))
      && (forall m :: m in months <==> exists k :: 0 <= k < |pool| && pool[k].month == m)
      && (forall i, j :: 0 <= i < j < |months| ==> months[j] < months[i])
  {
    var keys := SortDistinct(Descending, MonthKeys(pool));
    months := [];
    while |months| < |keys|
      invariant |months| <= |keys|
      invariant forall i :: 0 <= i < |months| ==> keys[i] == Pad2(months[i]) && ParseInt32(keys[i]) == Some(months[i] as int)
      invariant forall i :: 0 <= i < |months| ==> exists k :: 0 <= k < |pool| && pool[k].month == months[i]
    {
      assert keys[|months|] in keys;
      var m := MonthOfKey(pool, keys[|months|]);
      months := months + [m];
    }
    forall m: MonthOfYear | exists k :: 0 <= k < |pool| && pool[k].month == m
      ensures m in months
    {
      var i := KeysCoverPool(pool, m);
      ParsePad2(m);
      assert months[i] in months;
    }
    DescendingKeysDescendingMonths(keys, months);
  }

  /** The month list is "all" followed by the labels of the pool's months, descending. */
  lemma MonthOptionsShape(items: seq<Item>, typ: int, year: Choice) returns (months: seq<MonthOfYear>)
    ensures var r := MonthOptions(items, typ, year);
      var pool := MonthPool(items, typ, year);
      && |r| == |months| + 1
      && (forall i :: 0 <= i < |months| ==> r[i + 1] == Text(MonthLabel(months[i])))
      && (forall m :: m in months <==> exists k :: 0 <= k < |pool| && pool[k].month == m)
      && (forall i, j :: 0 <= i < j < |months| ==> months[j] < months[i])
  {
    var pool := MonthPool(items, typ, year);
    if |items| == 0 || |pool| == 0 {
      months := [];
    } else {
      var keys := SortDistinct(Descending, MonthKeys(pool));
      months := KeyMonths(pool);
      assert RelabelMonths(keys).Some?;
    }
  }

  lemma MonthOptionsMembership(items: seq<Item>, typ: int, year: Choice)
    ensures var r := MonthOptions(items, typ, year);
      var pool := MonthPool(items, typ, year);
      forall c :: c in r[1..] <==> exists k :: 0 <= k < |pool| && c == Text(MonthLabel(pool[k].month))
  {
    var r := MonthOptions(items, typ, year);
    var pool := MonthPool(items, typ, year);
    var months := MonthOptionsShape(items, typ, year);
    forall c
      ensures c in r[1..] <==> exists k :: 0 <= k < |pool| && c == Text(MonthLabel(pool[k].month))
    {
      if c in r[1..] {
        var i :| 0 <= i < |r[1..]| && r[1..][i] == c;
        assert r[i + 1] == c;
        assert months[i] in months;
      }
      if exists k :: 0 <= k < |pool| && c == Text(MonthLabel(pool[k].month)) {
        var k :| 0 <= k < |pool| && c == Text(MonthLabel(pool[k].month));
        assert pool[k].month in months;
        var i :| 0 <= i < |months| && months[i] == pool[k].month;
        assert r[1..][i] == c;
      }
    }
  }

  lemma MonthOptionsParse(items: seq<Item>, typ: int, year: Choice)
    ensures var r := MonthOptions(items, typ, year);
      && (forall i :: 1 <= i < |r| ==> ParseMonthLabel(r[i].s).Some? && 1 <= ParseMonthLabel(r[i].s).value <= 12)
      && (forall i, j :: 1 <= i < j < |r| ==> ParseMonthLabel(r[j].s).value < ParseMonthLabel(r[i].s).value)
  {
    var r := MonthOptions(items, typ, year);
    var months := MonthOptionsShape(items, typ, year);
    forall i | 1 <= i < |r|
      ensures ParseMonthLabel(r[i].s) == Some(months[i - 1] as int)
    {
      ParseMonthLabelRoundTrip(months[i - 1]);
    }
  }

  /** The month list holds, after "all", exactly the label of every month of the
      type-and-year pool, each once; every label parses back to its month, and the
      months descend. */
  lemma MonthOptionsSpec(items: seq<Item>, typ: int, year: Choice)
    ensures var r := MonthOptions(items, typ, year);
      var pool := MonthPool(items, typ, year);
      && (forall c :: c in r[1..] <==> exists k :: 0 <= k < |pool| && c == Text(MonthLabel(pool[k].month)))
      && (forall i :: 1 <= i < |r| ==> ParseMonthLabel(r[i].s).Some? && 1 <= ParseMonthLabel(r[i].s).value <= 12)
      && (forall i, j :: 1 <= i < j < |r| ==> ParseMonthLabel(r[j].s).value < ParseMonthLabel(r[i].s).value)
  {
    MonthOptionsMembership(items, typ, year);
    MonthOptionsParse(items, typ, year);
  }

  /** Selecting a month label restricts the filter to exactly that month number. */
  lemma MonthLabelSelectsMonth(q: Query, m: MonthOfYear, it: Item)
    requires q.month == Text(MonthLabel(m))
    ensures Matches(q, it) <==> Matches(q.(month := All), it) && it.month == m
  {
    ParseMonthLabelRoundTrip(m);
    assert MonthFacet(q.month) == Some(m as int);
  }

  /** The name list holds, after "all", exactly the non-empty action names of the
      type, year and month pool, each once, in ascending order. */
  lemma NameOptionsSpec(items: seq<Item>, typ: int, year: Choice, month: Choice)
    ensures var r := NameOptions(items, typ, year, month);
      var pool := NamePool(items, typ, year, month);
      && (forall c :: c in r[1..] <==> c.Text? && c.s != "" && exists k :: 0 <= k < |pool| && pool[k].name == c.s)
      && (forall i, j :: 1 <= i < j < |r| ==> LexLess(r[i].s, r[j].s))
  {
    var r := NameOptions(items, typ, year, month);
    var pool := NamePool(items, typ, year, month);
    if |items| > 0 && |pool| > 0 {
      var names := SortDistinct(Ascending, NamesOf(pool));
      assert r[1..] == Labelled(names);
      forall c
        ensures c in r[1..] <==> c.Text? && c.s != "" && exists k :: 0 <= k < |pool| && pool[k].name == c.s
      {
        if c in r[1..] {
          var i :| 0 <= i < |names| && r[1..][i] == c;
          assert names[i] in names;
        }
        if c.Text? && c.s != "" && exists k :: 0 <= k < |pool| && pool[k].name == c.s {
          assert c.s in NamesOf(pool);
          var i :| 0 <= i < |names| && names[i] == c.s;
          assert r[1..][i] == c;
        }
      }
      forall i, j | 1 <= i < j < |r|
        ensures LexLess(r[i].s, r[j].s)
      {
        assert Precedes(Ascending, names[i - 1], names[j - 1]);
      }
    }
  }
}

=== FILE: ledger.dfy ===
/** A Trailblaze Calendar detail item, the load-time ordering of the item list, and the
    checked `int` sum of `Number` the page shows as its total. */
module Ledger {
  import opened Numerals

  type MonthOfYear = m: int | 1 <= m <= 12 witness 1

  /** `DateTime.Year`. */
  type YearNumber = y: int | 1 <= y <= 9999 witness 1

  /** The fields of `TrailblazeCalendarDetailItem` the page reads: `Type` (1 Stellar Jade,
      2 Pass), `Time` (as an ordered key together with its year and month), `ActionName`
      (a null name is the empty string here) and `Number`. */
  datatype Item = Item(typ: int, time: int, year: YearNumber, month: MonthOfYear, name: string, num: Int32)

  /** Newest first: no item is newer than one before it. */
  predicate TimeDescending(s: seq<Item>) {
    forall i, j :: 0 <= i < j < |s| ==> s[j].time <= s[i].time
  }

  /** Puts `x` before the first item that is not newer than it. */
  function InsertByTime(x: Item, s: seq<Item>): (r: seq<Item>)
    requires TimeDescending(s)
    ensures TimeDescending(r)
    ensures |r| == |s| + 1
    ensures r[0] == x || (|s| > 0 && r[0] == s[0])
  {
    if |s| == 0 || s[0].time <= x.time then
      [x] + s
    else
      var rest := InsertByTime(x, s[1..]);
      var r := [s[0]] + rest;
      forall i, j | 0 <= i < j < |r|
        ensures r[j].time <= r[i].time
      {
        assert r[j] == rest[j - 1];
        assert rest[j - 1].time <= rest[0].time <= s[0].time;
        if i > 0 {
          assert r[i] == rest[i - 1];
        }
      }
      r
  }

  /** Inserting adds `x` and loses nothing. */
  lemma {:induction false} InsertByTimeCount(x: Item, s: seq<Item>)
    requires TimeDescending(s)
    ensures multiset(InsertByTime(x, s)) == multiset(s) + multiset{x}
    decreases |s|
  {
    if |s| > 0 && x.time < s[0].time {
      InsertByTimeCount(x, s[1..]);
      assert s == [s[0]] + s[1..];
    }
  }

  /** `OrderByDescending(x => x.Time)`: a stable sort on the time key alone. */
  function SortByTimeDesc(s: seq<Item>): (r: seq<Item>)
    ensures TimeDescending(r)
    ensures multiset(r) == multiset(s)
  {
    if |s| == 0 then []
    else
      var rest := SortByTimeDesc(s[1..]);
      InsertByTimeCount(s[0], rest);
      assert s == [s[0]] + s[1..];
      InsertByTime(s[0], rest)
  }

  /** The items with time key `t`, in their order in `s`. */
  function WithTime(s: seq<Item>, t: int): seq<Item> {
    if |s| == 0 then []
    else (if s[0].time == t then [s[0]] else []) + WithTime(s[1..], t)
  }

  lemma WithTimeCons(a: Item, r: seq<Item>, t: int)
    ensures WithTime([a] + r, t) == (if a.time == t then [a] else []) + WithTime(r, t)
  {
    assert ([a] + r)[0] == a && ([a] + r)[1..] == r;
  }

  lemma {:induction false} InsertByTimeStable(x: Item, s: seq<Item>, t: int)
    requires TimeDescending(s)
    ensures WithTime(InsertByTime(x, s), t) == (if x.time == t then [x] else []) + WithTime(s, t)
    decreases |s|
  {
    if |s| == 0 || s[0].time <= x.time {
      WithTimeCons(x, s, t);
    } else {
      var rest := InsertByTime(x, s[1..]);
      InsertByTimeStable(x, s[1..], t);
      WithTimeCons(s[0], rest, t);
      var own := if x.time == t then [x] else [];
      var head := if s[0].time == t then [s[0]] else [];
      assert head == [] || own == [];
      assert head + (own + WithTime(s[1..], t)) == own + (head + WithTime(s[1..], t));
    }
  }

  /** The sort is stable: items sharing a time key keep the order they were loaded in. */
  lemma {:induction false} SortIsStable(s: seq<Item>, t: int)
    ensures WithTime(SortByTimeDesc(s), t) == WithTime(s, t)
    decreases |s|
  {
    if |s| > 0 {
      SortIsStable(s[1..], t);
      InsertByTimeStable(s[0], SortByTimeDesc(s[1..]), t);
    }
  }

  /** The mathematical sum of `Number`. */
  function Sum(s: seq<Item>): int {
    if |s| == 0 then 0 else s[0].num + Sum(s[1..])
  }

  /** Every running total of `Number`, taken in order, fits an `int`. */
  predicate PrefixSumsFit(s: seq<Item>) {
    forall k :: 1 <= k <= |s| ==> InInt32(Sum(s[..k]))
  }

  function CheckedSumFrom(acc: int, s: seq<Item>): Option<int>
    decreases |s|
  {
    if |s| == 0 then Some(acc)
    else
      var next := acc + s[0].num;
      if InInt32(next) then CheckedSumFrom(next, s[1..]) else None
  }

  /** `Sum(x => x.Number)` over `int`: a checked running total, `None` where it throws
      `OverflowException`. */
  function CheckedSum(s: seq<Item>): Option<int> {
    CheckedSumFrom(0, s)
  }

  lemma SumPrefixStep(s: seq<Item>, k: int)
    requires 1 <= k <= |s|
    ensures Sum(s[..k]) == s[0].num + Sum(s[1..][..k - 1])
  {
    assert s[..k][0] == s[0];
    assert s[..k][1..] == s[1..][..k - 1];
  }

  /** Every running total of `Number` in `s`, started from `acc`, fits an `int`. */
  predicate RunningTotalsFit(acc: int, s: seq<Item>) {
    forall k :: 1 <= k <= |s| ==> InInt32(acc + Sum(s[..k]))
  }

  lemma RunningTotalsFitStep(acc: int, s: seq<Item>)
    requires |s| > 0
    ensures RunningTotalsFit(acc, s)
      <==> InInt32(acc + s[0].num) && RunningTotalsFit(acc + s[0].num, s[1..])
  {
    forall k | 1 <= k <= |s| {
      SumPrefixStep(s, k);
    }
    assert s[1..][..0] == [];
    if InInt32(acc + s[0].num) && RunningTotalsFit(acc + s[0].num, s[1..]) {
      forall k | 1 <= k <= |s|
        ensures InInt32(acc + Sum(s[..k]))
      {
        if k > 1 {
          assert InInt32(acc + s[0].num + Sum(s[1..][..k - 1]));
        }
      }
    }
    if RunningTotalsFit(acc, s) {
      assert InInt32(acc + Sum(s[..1]));
      forall k | 1 <= k <= |s[1..]|
        ensures InInt32(acc + s[0].num + Sum(s[1..][..k]))
      {
        assert InInt32(acc + Sum(s[..k + 1]));
      }
    }
  }

  lemma {:induction false} CheckedSumFromSpec(acc: int, s: seq<Item>)
    ensures CheckedSumFrom(acc, s) == if RunningTotalsFit(acc, s) then Some(acc + Sum(s)) else None
    decreases |s|
  {
    if |s| > 0 {
      RunningTotalsFitStep(acc, s);
      CheckedSumFromSpec(acc + s[0].num, s[1..]);
    }
  }

  /** The checked total equals the sum exactly when no running total overflows;
      otherwise it fails. */
  lemma {:induction false} CheckedSumSpec(s: seq<Item>)
    ensures CheckedSum(s) == if PrefixSumsFit(s) then Some(Sum(s)) else None
  {
    CheckedSumFromSpec(0, s);
  }
}

=== FILE: numerals.dfy ===
/** Decimal text as the detail page writes and reads it: `int.ToString()` for years,
    the two-digit `"MM"` month key, the `"{n}月"` month label, and `int.TryParse` /
    `int.Parse` with the default integer number style. */
module Numerals {

  datatype Option<T> = None | Some(value: T)

  /** The range of a C# `int`. */
  predicate InInt32(x: int) {
    -0x8000_0000 <= x <= 0x7fff_ffff
  }

  type Int32 = x: int | InInt32(x)

  /** The suffix of a month label. */
  const MonthSuffix: char := '月'

  predicate IsDigit(c: char) {
    '0' <= c <= '9'
  }

  predicate AllDigits(s: string) {
    forall i :: 0 <= i < |s| ==> IsDigit(s[i])
  }

  /** White space skipped around a number: space and U+0009 to U+000D. */
  predicate IsWhite(c: char) {
    c == ' ' || '\t' <= c <= '\r'
  }

  function DigitValue(c: char): nat
    requires IsDigit(c)
  {
    (c as int) - ('0' as int)
  }

  function DigitChar(d: nat): (c: char)
    requires d < 10
    ensures IsDigit(c) && DigitValue(c) == d
  {
    (('0' as int) + d) as char
  }

  /** The value of a string of decimal digits, most significant first. */
  function DigitsValue(s: string): nat
    requires AllDigits(s)
    decreases |s|
  {
    if |s| == 0 then 0 else DigitsValue(s[..|s| - 1]) * 10 + DigitValue(s[|s| - 1])
  }

  /** `n.ToString()` for a non-negative `n`: no padding, no sign. */
  function DecimalText(n: nat): (s: string)
    ensures |s| > 0 && AllDigits(s)
    ensures DigitsValue(s) == n
    ensures s[0] != '0' || s == "0"
    decreases n
  {
    if n < 10 then
      assert [DigitChar(n)][..0] == [];
      [DigitChar(n)]
    else
      var prefix := DecimalText(n / 10);
      var s := prefix + [DigitChar(n % 10)];
      assert s[..|s| - 1] == prefix;
      assert s[0] == prefix[0];
      s
  }

  /** `n.ToString()` for any `int`. */
  function IntText(n: int): (s: string)
    ensures |s| > 0
  {
    if n < 0 then "-" + DecimalText(-n) else DecimalText(n)
  }

  /** `Time.ToString("MM")`: the month zero-padded to two digits. */
  function Pad2(m: nat): (s: string)
    requires m < 100
    ensures |s| == 2 && AllDigits(s)
  {
    [DigitChar(m / 10), DigitChar(m % 10)]
  }

  function TrimStart(s: string): (t: string)
    ensures |t| <= |s|
  {
    if |s| > 0 && IsWhite(s[0]) then TrimStart(s[1..]) else s
  }

  function TrimEnd(s: string): (t: string)
    ensures |t| <= |s|
  {
    if |s| > 0 && IsWhite(s[|s| - 1]) then TrimEnd(s[..|s| - 1]) else s
  }

  function SignedValue(sign: int, digits: string): Option<int> {
    if |digits| > 0 && AllDigits(digits) && InInt32(sign * DigitsValue(digits))
    then Some(sign * DigitsValue(digits))
    else None
  }

  /** `int.TryParse(s, out v)`: white space around, an optional sign, then decimal
      digits whose value fits an `int`; `None` stands for a `false` return. */
  function ParseInt32(s: string): (r: Option<int>)
    ensures r.Some? ==> InInt32(r.value)
  {
    var t := TrimEnd(TrimStart(s));
    if |t| > 0 && t[0] == '-' then SignedValue(-1, t[1..])
    else if |t| > 0 && t[0] == '+' then SignedValue(1, t[1..])
    else SignedValue(1, t)
  }

  /** `s.Replace(gone.ToString(), "")`: every occurrence of `gone` removed. */
  function RemoveChar(s: string, gone: char): (r: string)
    ensures gone !in r
    ensures |r| <= |s|
  {
    if |s| == 0 then []
    else if s[0] == gone then RemoveChar(s[1..], gone)
    else [s[0]] + RemoveChar(s[1..], gone)
  }

  /** `$"{n}月"`: the label a month is shown under. */
  function MonthLabel(n: int): string {
    IntText(n) + [MonthSuffix]
  }

  /** A month label is unpadded while its key is padded: month 7 is labelled "7月" and
      keyed "07". */
  lemma MonthTextsExample()
    ensures MonthLabel(7) == "7月" && Pad2(7) == "07"
  {
    assert DecimalText(7) == [DigitChar(7)];
  }

  /** The month number a month label stands for: the suffix stripped, the rest parsed. */
  function ParseMonthLabel(s: string): Option<int> {
    ParseInt32(RemoveChar(s, MonthSuffix))
  }

  lemma RemoveAbsentChar(s: string, c: char)
    requires c !in s
    ensures RemoveChar(s, c) == s
  {
    if |s| > 0 {
      assert s[0] != c;
      RemoveAbsentChar(s[1..], c);
      assert s == [s[0]] + s[1..];
    }
  }

  lemma RemoveCharAppend(a: string, b: string, c: char)
    ensures RemoveChar(a + b, c) == RemoveChar(a, c) + RemoveChar(b, c)
  {
    if |a| > 0 {
      assert (a + b)[1..] == a[1..] + b;
      RemoveCharAppend(a[1..], b, c);
    } else {
      assert a + b == b;
    }
  }

  lemma DigitsHaveNoSuffix(s: string)
    requires AllDigits(s)
    ensures MonthSuffix !in s
  {
    forall i | 0 <= i < |s|
      ensures s[i] != MonthSuffix
    {
      assert IsDigit(s[i]);
    }
  }

  lemma ParseDigitString(s: string)
    requires |s| > 0 && AllDigits(s) && InInt32(DigitsValue(s))
    ensures ParseInt32(s) == Some(DigitsValue(s))
  {
    assert IsDigit(s[0]) && IsDigit(s[|s| - 1]);
    assert TrimStart(s) == s;
    assert TrimEnd(s) == s;
  }

  /** Formatting an `int` and parsing the text back gives the same `int`. */
  lemma {:induction false} ParseIntText(n: Int32)
    ensures ParseInt32(IntText(n)) == Some(n)
  {
    if n < 0 {
      var d := DecimalText(-(n as int));
      var s := "-" + d;
      assert s[0] == '-' && s[1..] == d;
      assert IsDigit(s[|s| - 1]);
      assert TrimStart(s) == s;
      assert TrimEnd(s) == s;
      assert SignedValue(-1, d) == Some(n);
    } else {
      ParseDigitString(DecimalText(n));
    }
  }

  /** The `"MM"` key of a month parses back to that month, as `int.Parse(m)` reads it. */
  lemma {:induction false} ParsePad2(m: nat)
    requires m < 100
    ensures ParseInt32(Pad2(m)) == Some(m)
  {
    var s := Pad2(m);
    var head := s[..1];
    assert head == [DigitChar(m / 10)];
    assert head[..0] == [];
    assert DigitsValue(head) == m / 10;
    assert DigitsValue(s) == DigitsValue(head) * 10 + m % 10;
    assert DigitsValue(s) == m;
    ParseDigitString(s);
  }

  /** Stripping the suffix from a month label and parsing the rest gives back the month:
      the value the month filter compares against `Time.Month`. */
  lemma {:induction false} ParseMonthLabelRoundTrip(n: Int32)
    ensures ParseMonthLabel(MonthLabel(n)) == Some(n)
  {
    var t := IntText(n);
    if n < 0 {
      var d := DecimalText(-(n as int));
      DigitsHaveNoSuffix(d);
      assert MonthSuffix !in "-";
      RemoveCharAppend("-", d, MonthSuffix);
      RemoveAbsentChar("-", MonthSuffix);
      RemoveAbsentChar(d, MonthSuffix);
    } else {
      DigitsHaveNoSuffix(t);
      RemoveAbsentChar(t, MonthSuffix);
    }
    assert RemoveChar(t, MonthSuffix) == t;
    RemoveCharAppend(t, [MonthSuffix], MonthSuffix);
    assert RemoveChar([MonthSuffix], MonthSuffix) == [];
    assert RemoveChar(MonthLabel(n), MonthSuffix) == t;
    ParseIntText(n);
  }
}

=== FILE: ordering.dfy ===
/** The string order the option lists are sorted by, and "distinct, then sorted" over it.
    The order is ordinal (character by character); the proofs below use only the facts
    that it is a strict total order, so any such order could take its place. */
module Ordering {
  import opened Numerals

  /** `a` sorts strictly before `b`: the first differing character decides, and a proper
      prefix sorts first. */
  predicate LexLess(a: string, b: string)
    decreases |a|
  {
    if |a| == 0 then |b| > 0
    else if |b| == 0 then false
    else if a[0] != b[0] then a[0] < b[0]
    else LexLess(a[1..], b[1..])
  }

  lemma {:induction false} LexIrreflexive(a: string)
    ensures !LexLess(a, a)
    decreases |a|
  {
    if |a| > 0 {
      LexIrreflexive(a[1..]);
    }
  }

  lemma {:induction false} LexTransitive(a: string, b: string, c: string)
    requires LexLess(a, b) && LexLess(b, c)
    ensures LexLess(a, c)
    decreases |a|
  {
    if |a| > 0 && |b| > 0 && |c| > 0 && a[0] == b[0] && b[0] == c[0] {
      LexTransitive(a[1..], b[1..], c[1..]);
    }
  }

  lemma {:induction false} LexTotal(a: string, b: string)
    requires a != b
    ensures LexLess(a, b) || LexLess(b, a)
    decreases |a|
  {
    if |a| > 0 && |b| > 0 && a[0] == b[0] {
      assert a == [a[0]] + a[1..] && b == [b[0]] + b[1..];
      LexTotal(a[1..], b[1..]);
    }
  }

  lemma LexAsymmetric(a: string, b: string)
    requires LexLess(a, b)
    ensures !LexLess(b, a)
  {
    if LexLess(b, a) {
      LexTransitive(a, b, a);
      LexIrreflexive(a);
    }
  }

  /** Ordering of two-digit keys agrees with the ordering of the numbers they encode, so
      sorting the `"MM"` keys sorts the months. */
  lemma {:induction false} Pad2Order(a: nat, b: nat)
    requires a < 100 && b < 100
    ensures LexLess(Pad2(a), Pad2(b)) <==> a < b
  {
    var pa, pb := Pad2(a), Pad2(b);
    assert a == (a / 10) * 10 + a % 10 && b == (b / 10) * 10 + b % 10;
    assert (pa[0] as int) - ('0' as int) == a / 10 && (pb[0] as int) - ('0' as int) == b / 10;
    assert (pa[1] as int) - ('0' as int) == a % 10 && (pb[1] as int) - ('0' as int) == b % 10;
    if pa[0] == pb[0] {
      assert pa[1..][1..] == [] && pb[1..][1..] == [];
      assert LexLess(pa, pb) == LexLess(pa[1..], pb[1..]);
      assert LexLess(pa[1..], pb[1..]) == (pa[1] < pb[1] || false);
    }
  }

  datatype Direction = Ascending | Descending

  predicate Precedes(dir: Direction, a: string, b: string) {
    match dir
    case Ascending => LexLess(a, b)
    case Descending => LexLess(b, a)
  }

  lemma PrecedesTransitive(dir: Direction, a: string, b: string, c: string)
    requires Precedes(dir, a, b) && Precedes(dir, b, c)
    ensures Precedes(dir, a, c)
  {
    if dir.Ascending? { LexTransitive(a, b, c); } else { LexTransitive(c, b, a); }
  }

  lemma PrecedesTotal(dir: Direction, a: string, b: string)
    requires a != b && !Precedes(dir, a, b)
    ensures Precedes(dir, b, a)
  {
    LexTotal(a, b);
  }

  lemma PrecedesAsymmetric(dir: Direction, a: string, b: string)
    ensures Precedes(dir, a, b) ==> !Precedes(dir, b, a) && a != b
  {
    if Precedes(dir, a, b) {
      if dir.Ascending? { LexAsymmetric(a, b); } else { LexAsymmetric(b, a); }
    }
  }

  /** Strictly sorted in the given direction, hence free of duplicates. */
  predicate Sorted(dir: Direction, xs: seq<string>) {
    forall i, j :: 0 <= i < j < |xs| ==> Precedes(dir, xs[i], xs[j])
  }

  /** Adds `x` to a strictly sorted list unless it is already there. */
  function Insert(dir: Direction, x: string, xs: seq<string>): (r: seq<string>)
    requires Sorted(dir, xs)
    ensures Sorted(dir, r)
    ensures forall y :: y in r <==> y == x || y in xs
  {
    if |xs| == 0 then [x]
    else if x == xs[0] then xs
    else if Precedes(dir, x, xs[0]) then
      forall j | 0 < j < |xs|
        ensures Precedes(dir, x, xs[j])
      {
        PrecedesTransitive(dir, x, xs[0], xs[j]);
      }
      [x] + xs
    else
      PrecedesTotal(dir, x, xs[0]);
      var rest := Insert(dir, x, xs[1..]);
      forall y | y in rest
        ensures Precedes(dir, xs[0], y)
      {
        if y != x {
          var k :| 0 <= k < |xs[1..]| && xs[1..][k] == y;
          assert xs[k + 1] == y;
        }
      }
      [xs[0]] + rest
  }

  /** `xs.Distinct().OrderBy(x => x)` (or `OrderByDescending`): the distinct values of
      `xs`, each once, in strict order. */
  function SortDistinct(dir: Direction, xs: seq<string>): (r: seq<string>)
    ensures Sorted(dir, r)
    ensures forall y :: y in r <==> y in xs
  {
    if |xs| == 0 then []
    else
      var rest := SortDistinct(dir, xs[1..]);
      assert forall y :: y in xs <==> y == xs[0] || y in xs[1..];
      Insert(dir, xs[0], rest)
  }

  /** The head of a strictly sorted list precedes every other element. */
  lemma SortedHead(dir: Direction, a: seq<string>, y: string)
    requires Sorted(dir, a) && y in a
    ensures y == a[0] || Precedes(dir, a[0], y)
  {
    var i :| 0 <= i < |a| && a[i] == y;
    if i > 0 {
      assert Precedes(dir, a[0], a[i]);
    }
  }

  /** A strictly sorted list is determined by its elements: whatever produced it, the
      option list equals the one `SortDistinct` builds from the same values. */
  lemma {:induction false} SortedUnique(dir: Direction, a: seq<string>, b: seq<string>)
    requires Sorted(dir, a) && Sorted(dir, b)
    requires forall y :: y in a <==> y in b
    ensures a == b
    decreases |a|
  {
    if |a| > 0 { assert a[0] in b; }
    if |b| > 0 { assert b[0] in a; }
    if |a| > 0 {
      SortedHead(dir, b, a[0]);
      SortedHead(dir, a, b[0]);
      PrecedesAsymmetric(dir, a[0], b[0]);
      assert a[0] == b[0];
      forall y
        ensures y in a[1..] <==> y in b[1..]
      {
        if y in a[1..] {
          var i :| 1 <= i < |a| && a[i] == y;
          PrecedesAsymmetric(dir, a[0], a[i]);
          assert y in b;
        }
        if y in b[1..] {
          var i :| 1 <= i < |b| && b[i] == y;
          PrecedesAsymmetric(dir, b[0], b[i]);
          assert y in a;
        }
      }
      SortedUnique(dir, a[1..], b[1..]);
      assert a == [a[0]] + a[1..] && b == [b[0]] + b[1..];
    }
  }
}

=== FILE: reentrant.dfy ===
/** The detail page's updates as they actually run: every assignment to a selection goes
    through its generated setter, which fires the property's change hook, and the hooks
    share the `_isUpdatingFilters` flag. The year and month hooks clear the flag on every
    exit, including their early returns, so an update started under the flag does not
    stay under it: the first month hook it fires ends the suppression, and from then on
    the month and name hooks run in full, nesting a rebuild of the name list and extra
    filter passes inside the update. This module records every state the page shows on
    the way, and proves that each handler ends in the page `DetailPage` computes and
    that no state shown selects a month or a name its list does not hold, unless the
    user picks a stale month or name, which the setter stores before its hook rejects it. */
module Reentrant {
  import opened Ledger
  import opened Facets
  import opened DetailPage

  /** The page, the `_isUpdatingFilters` flag, and every page state shown so far. */
  datatype Screen = Screen(page: Page, busy: bool, shown: seq<Page>)

  /** One assignment to an observable property: the page becomes `q` and is shown. */
  function Show(s: Screen, q: Page): (r: Screen)
    ensures r.page == q && r.busy == s.busy
    ensures r.shown == s.shown + [q]
  {
    s.(page := q, shown := s.shown + [q])
  }

  /** What a drop-down can display: nothing selected, or one of its items. */
  predicate Shown(c: Choice, options: seq<Choice>) {
    c.Null? || c in options
  }

  predicate NoStraySelection(p: Page) {
    Shown(p.month, p.months) && Shown(p.name, p.names)
  }

  /** No state shown so far selects a month or a name its list does not hold. */
  predicate Clean(shown: seq<Page>) {
    forall i :: 0 <= i < |shown| ==> NoStraySelection(shown[i])
  }

  lemma CleanAppend(shown: seq<Page>, q: Page)
    requires Clean(shown) && NoStraySelection(q)
    ensures Clean(shown + [q])
  {
    forall i | 0 <= i < |shown + [q]|
      ensures NoStraySelection((shown + [q])[i])
    {
      if i < |shown| {
        assert (shown + [q])[i] == shown[i];
      }
    }
  }

  // ---- The name ----------------------------------------------------------------------

  /** `OnSelectedActionNameChanged`: nothing under the flag or for a value the guard
      rejects, otherwise a filter pass. It has no `finally` and leaves the flag alone. */
  function OnNameChanged(s: Screen): (r: Screen)
    ensures r.busy == s.busy
    ensures SameFacets(r.page, s.page)
    ensures s.busy || !Admits(s.page.names, s.page.name) ==> r == s
    ensures !s.busy && Admits(s.page.names, s.page.name) ==> r.page == ApplyFilters(s.page)
  {
    if s.busy || !Admits(s.page.names, s.page.name) then s
    else Show(s, ApplyFilters(s.page))
  }

  /** Assigning `SelectedActionName`: nothing for an unchanged value, otherwise the value
      is stored and shown, then the hook runs. */
  function SetName(s: Screen, v: Choice): (r: Screen)
    ensures r.busy == s.busy
    ensures SameFacets(r.page, s.page.(name := v))
  {
    if v == s.page.name then s else OnNameChanged(Show(s, s.page.(name := v)))
  }

  /** `UpdateActionNames` through the setters: clear the name, replace the list, restore. */
  function UpdateActionNamesPass(s: Screen): (r: Screen)
    ensures r.busy == s.busy
  {
    var previous := s.page.name;
    var cleared := SetName(s, Null);
    var options := NameOptions(cleared.page.items, cleared.page.typ, cleared.page.year, cleared.page.month);
    var replaced := Show(cleared, cleared.page.(names := options));
    SetName(replaced, Restore(previous, options))
  }

  /** Whatever the flag, the name pass ends in the names `UpdateActionNames` computes. */
  lemma NamePassAgrees(s: Screen)
    ensures SameFacets(UpdateActionNamesPass(s).page, UpdateActionNames(s.page))
  {
    var cleared := SetName(s, Null);
    assert SameFacets(cleared.page, s.page.(name := Null));
  }

  lemma SetNameClean(s: Screen, v: Choice)
    requires Clean(s.shown) && Shown(s.page.month, s.page.months) && Shown(v, s.page.names)
    ensures Clean(SetName(s, v).shown) && NoStraySelection(SetName(s, v).page)
  {
    if v != s.page.name {
      var stored := s.page.(name := v);
      CleanAppend(s.shown, stored);
      var t := Show(s, stored);
      if !t.busy && Admits(t.page.names, t.page.name) {
        CleanAppend(t.shown, ApplyFilters(stored));
      }
    }
  }

  /** As written, a stale name is stored and shown before its hook rejects it, so the
      screen does show a stray selection. */
  lemma StaleNameIsShown(s: Screen, v: Choice)
    requires v != s.page.name && !Admits(s.page.names, v)
    ensures SetName(s, v).page.name == v
    ensures !Clean(SetName(s, v).shown)
  {
    var r := SetName(s, v);
    assert r.shown[|s.shown|] == s.page.(name := v);
  }

  /** The name pass never shows a stray name, whatever name it starts from: the name is
      cleared before its list is replaced. */
  lemma NamePassClean(s: Screen)
    requires Clean(s.shown) && Shown(s.page.month, s.page.months)
    ensures Clean(UpdateActionNamesPass(s).shown) && NoStraySelection(UpdateActionNamesPass(s).page)
  {
    var previous := s.page.name;
    SetNameClean(s, Null);
    var cleared := SetName(s, Null);
    var options := NameOptions(cleared.page.items, cleared.page.typ, cleared.page.year, cleared.page.month);
    var replaced := Show(cleared, cleared.page.(names := options));
    CleanAppend(cleared.shown, replaced.page);
    SetNameClean(replaced, Restore(previous, options));
  }

  // ---- The month ---------------------------------------------------------------------

  /** `OnSelectedMonthChanged`: under the flag or for a value the guard rejects it returns
      at once; otherwise it rebuilds the names under the flag and filters. Its `finally`
      clears the flag on every path. */
  function OnMonthChanged(s: Screen): (r: Screen)
    ensures !r.busy
    ensures s.busy || !Admits(s.page.months, s.page.month) ==> r.page == s.page && r.shown == s.shown
  {
    if s.busy || !Admits(s.page.months, s.page.month) then s.(busy := false)
    else
      var t := UpdateActionNamesPass(s.(busy := true));
      Show(t, ApplyFilters(t.page)).(busy := false)
  }

  /** A hook that runs in full ends in the month handler's page of `DetailPage`. */
  lemma OnMonthChangedAgrees(s: Screen)
    requires !s.busy && Admits(s.page.months, s.page.month)
    ensures OnMonthChanged(s).page == ApplyFilters(UpdateActionNames(s.page))
  {
    var t := UpdateActionNamesPass(s.(busy := true));
    NamePassAgrees(s.(busy := true));
    ApplyFiltersReadsFacets(t.page, UpdateActionNames(s.page));
  }

  /** Assigning `SelectedMonth`. */
  function SetMonth(s: Screen, v: Choice): (r: Screen)
    ensures v == s.page.month ==> r == s
    ensures v != s.page.month ==> !r.busy
  {
    if v == s.page.month then s else OnMonthChanged(Show(s, s.page.(month := v)))
  }

  lemma OnMonthChangedClean(s: Screen)
    requires Clean(s.shown) && NoStraySelection(s.page)
    ensures Clean(OnMonthChanged(s).shown) && NoStraySelection(OnMonthChanged(s).page)
  {
    if !s.busy && Admits(s.page.months, s.page.month) {
      var b := s.(busy := true);
      NamePassClean(b);
      var t := UpdateActionNamesPass(b);
      NamePassAgrees(b);
      CleanAppend(t.shown, ApplyFilters(t.page));
    }
  }

  lemma SetMonthClean(s: Screen, v: Choice)
    requires Clean(s.shown) && Shown(v, s.page.months) && Shown(s.page.name, s.page.names)
    ensures Clean(SetMonth(s, v).shown) && NoStraySelection(SetMonth(s, v).page)
  {
    if v != s.page.month {
      var stored := s.page.(month := v);
      CleanAppend(s.shown, stored);
      OnMonthChangedClean(Show(s, stored));
    }
  }

  /** As written, a stale month is stored and shown before its hook rejects it. */
  lemma StaleMonthIsShown(s: Screen, v: Choice)
    requires v != s.page.month && !Admits(s.page.months, v)
    ensures SetMonth(s, v).page.month == v
    ensures !Clean(SetMonth(s, v).shown)
  {
    var r := SetMonth(s, v);
    assert r.shown[|s.shown|] == s.page.(month := v);
  }

  // ---- Months and names --------------------------------------------------------------

  /** `UpdateMonthsAndNames` through the setters: clear the month, replace the list,
      restore, then rebuild the names. */
  function UpdateMonthsAndNamesPass(s: Screen): (r: Screen)
  {
    var previous := s.page.month;
    var cleared := SetMonth(s, Null);
    var options := MonthOptions(cleared.page.items, cleared.page.typ, cleared.page.year);
    var replaced := Show(cleared, cleared.page.(months := options));
    var restored := SetMonth(replaced, Restore(previous, options));
    UpdateActionNamesPass(restored)
  }

  /** Started under the flag, or with no month selected, the update ends with the flag
      down and the lists and selections `UpdateMonthsAndNames` computes, although on the
      way the restored month's hook may run in full and rebuild the names once more. */
  lemma MonthPassAgrees(s: Screen)
    requires s.busy || s.page.month.Null?
    ensures !UpdateMonthsAndNamesPass(s).busy
    ensures SameFacets(UpdateMonthsAndNamesPass(s).page, UpdateMonthsAndNames(s.page))
  {
    var p := s.page;
    var previous := p.month;
    var cleared := SetMonth(s, Null);
    assert cleared.page == p.(month := Null);
    var options := MonthOptions(p.items, p.typ, p.year);
    var replaced := Show(cleared, cleared.page.(months := options));
    var m := Restore(previous, options);
    assert OptionList(options) && m != Null;
    var target := p.(months := options, month := m);
    assert replaced.page.(month := m) == target;
    var restored := SetMonth(replaced, m);
    var u := UpdateActionNames(target);
    if replaced.busy {
      assert restored.page == target;
    } else {
      assert Admits(options, m);
      OnMonthChangedAgrees(Show(replaced, target));
      assert restored.page == ApplyFilters(u);
      UpdateActionNamesIdempotent(target);
      assert SameFacets(restored.page, u);
      assert UpdateActionNames(restored.page) == UpdateActionNames(u).(filtered := restored.page.filtered, total := restored.page.total);
    }
    NamePassAgrees(restored);
  }

  /** Each selection is cleared before its list is replaced, so no state the update shows
      selects a month or a name its list does not hold, even when the month starts out
      stale. */
  lemma NoStraySelectionDuringUpdate(s: Screen)
    requires Clean(s.shown) && Shown(s.page.name, s.page.names)
    ensures Clean(UpdateMonthsAndNamesPass(s).shown)
    ensures NoStraySelection(UpdateMonthsAndNamesPass(s).page)
  {
    var previous := s.page.month;
    SetMonthClean(s, Null);
    var cleared := SetMonth(s, Null);
    var options := MonthOptions(cleared.page.items, cleared.page.typ, cleared.page.year);
    var replaced := Show(cleared, cleared.page.(months := options));
    CleanAppend(cleared.shown, replaced.page);
    SetMonthClean(replaced, Restore(previous, options));
    NamePassClean(SetMonth(replaced, Restore(previous, options)));
  }

  // ---- The handlers ------------------------------------------------------------------

  /** `OnSelectedYearChanged`, shaped like the month hook around the full update. */
  function OnYearChanged(s: Screen): (r: Screen)
    ensures !r.busy
    ensures s.busy || !Admits(s.page.years, s.page.year) ==> r.page == s.page && r.shown == s.shown
  {
    if s.busy || !Admits(s.page.years, s.page.year) then s.(busy := false)
    else
      var t := UpdateMonthsAndNamesPass(s.(busy := true));
      Show(t, ApplyFilters(t.page)).(busy := false)
  }

  /** Assigning `SelectedYear`. */
  function SetYear(s: Screen, v: Choice): (r: Screen)
    ensures v == s.page.year ==> r == s
    ensures v != s.page.year ==> !r.busy
  {
    if v == s.page.year then s else OnYearChanged(Show(s, s.page.(year := v)))
  }

  /** `TypeToggleButton_Click`: ignored under the flag; unchecking the current type is
      refused; otherwise the type is stored (it has no hook) and the lists are rebuilt and
      filtered under the flag, which is cleared at the end. */
  function ClickTypeTogglePass(s: Screen, typ: int, isChecked: bool): (r: Screen)
    ensures s.busy || (!isChecked && typ == s.page.typ) ==> r == s
  {
    if s.busy || (!isChecked && typ == s.page.typ) then s
    else
      var typed := Show(s, s.page.(typ := typ));
      var t := UpdateMonthsAndNamesPass(typed.(busy := true));
      Show(t, ApplyFilters(t.page)).(busy := false)
  }

  /** Between user events the flag is down, and then every handler as it runs ends in the
      page the corresponding `DetailPage` handler computes, with the flag down again. */
  lemma SetYearAgrees(s: Screen, v: Choice)
    requires !s.busy
    ensures SetYear(s, v).page == SelectYear(s.page, v) && !SetYear(s, v).busy
  {
    if v != s.page.year && Admits(s.page.years, v) {
      var b := Show(s, s.page.(year := v)).(busy := true);
      MonthPassAgrees(b);
      var t := UpdateMonthsAndNamesPass(b);
      ApplyFiltersReadsFacets(t.page, UpdateMonthsAndNames(s.page.(year := v)));
    }
  }

  lemma SetMonthAgrees(s: Screen, v: Choice)
    requires !s.busy
    ensures SetMonth(s, v).page == SelectMonth(s.page, v) && !SetMonth(s, v).busy
  {
    if v != s.page.month && Admits(s.page.months, v) {
      OnMonthChangedAgrees(Show(s, s.page.(month := v)));
    }
  }

  lemma SetNameAgrees(s: Screen, v: Choice)
    requires !s.busy
    ensures SetName(s, v).page == SelectName(s.page, v) && !SetName(s, v).busy
  {
  }

  lemma ClickTypeToggleAgrees(s: Screen, typ: int, isChecked: bool)
    requires !s.busy
    ensures var r := ClickTypeTogglePass(s, typ, isChecked);
      r.page == ClickTypeToggle(s.page, typ, isChecked) && !r.busy
  {
    if isChecked || typ != s.page.typ {
      var b := Show(s, s.page.(typ := typ)).(busy := true);
      MonthPassAgrees(b);
      var t := UpdateMonthsAndNamesPass(b);
      ApplyFiltersReadsFacets(t.page, UpdateMonthsAndNames(s.page.(typ := typ)));
    }
  }

  /** A year, even a stale one, never puts a stray month or name on screen: an admitted
      year runs the update above. A stale year is itself stored off its list, but the year
      is no part of `NoStraySelection`. */
  lemma SetYearClean(s: Screen, v: Choice)
    requires Clean(s.shown) && NoStraySelection(s.page)
    ensures Clean(SetYear(s, v).shown) && NoStraySelection(SetYear(s, v).page)
  {
    if v != s.page.year {
      var stored := Show(s, s.page.(year := v));
      CleanAppend(s.shown, stored.page);
      if !s.busy && Admits(s.page.years, v) {
        var b := stored.(busy := true);
        NoStraySelectionDuringUpdate(b);
        var t := UpdateMonthsAndNamesPass(b);
        CleanAppend(t.shown, ApplyFilters(t.page));
      }
    }
  }

  lemma ClickTypeToggleClean(s: Screen, typ: int, isChecked: bool)
    requires Clean(s.shown) && NoStraySelection(s.page)
    ensures Clean(ClickTypeTogglePass(s, typ, isChecked).shown)
    ensures NoStraySelection(ClickTypeTogglePass(s, typ, isChecked).page)
  {
    if !s.busy && (isChecked || typ != s.page.typ) {
      var typed := Show(s, s.page.(typ := typ));
      CleanAppend(s.shown, typed.page);
      var b := typed.(busy := true);
      NoStraySelectionDuringUpdate(b);
      var t := UpdateMonthsAndNamesPass(b);
      CleanAppend(t.shown, ApplyFilters(t.page));
    }
  }

  // ---- The load ----------------------------------------------------------------------

  /** `InitializeFilters` through the setters: the flag is raised, the lists are assigned
      and the selections set to their first entries; with items, the year's hook returns
      at once but clears the flag, so the update that follows runs its hooks. */
  function InitializeFiltersPass(s: Screen): (r: Screen)
    ensures !r.busy
  {
    var b := s.(busy := true);
    if |b.page.items| == 0 then
      var y := Show(b, b.page.(years := [All]));
      var m := Show(y, y.page.(months := [All]));
      var n := Show(m, m.page.(names := [All]));
      SetName(SetMonth(SetYear(n, All), All), All).(busy := false)
    else
      var years := YearOptions(b.page.items);
      var listed := Show(b, b.page.(years := years));
      UpdateMonthsAndNamesPass(SetYear(listed, years[0])).(busy := false)
  }

  /** `InitializeDataAsync` on a freshly navigated page, through the setters: the items
      sorted newest first are assigned, the filters initialized, the filters applied. */
  function LoadPass(typ: int, loaded: seq<Item>): Screen {
    var blank := Blank(typ, SortByTimeDesc(loaded));
    var t := InitializeFiltersPass(Screen(blank, false, [blank]));
    Show(t, ApplyFilters(t.page))
  }

  /** With no items, the three sentinel assignments end in `DetailPage.InitializeFilters`:
      the year's hook returns early, the month's runs and settles the names. */
  lemma EmptyInitializeAgrees(s: Screen)
    requires |s.page.items| == 0 && s.page.year.Null? && s.page.month.Null? && s.page.name.Null?
    ensures SameFacets(InitializeFiltersPass(s).page, InitializeFilters(s.page))
  {
    var b := s.(busy := true);
    var y := Show(b, b.page.(years := [All]));
    var m := Show(y, y.page.(months := [All]));
    var n := Show(m, m.page.(names := [All]));
    var ys := SetYear(n, All);
    assert ys.page == n.page.(year := All) && !ys.busy;
    var q := ys.page.(month := All);
    assert NameOptions(q.items, q.typ, q.year, q.month) == [All];
    OnMonthChangedAgrees(Show(ys, q));
    var ms := SetMonth(ys, All);
    assert ms.page == ApplyFilters(UpdateActionNames(q));
    assert ms.page.name == All;
  }

  /** With items, the year's early return leaves the flag down and the month unselected,
      so the update that follows ends in `DetailPage.InitializeFilters`. */
  lemma InitializeAgrees(s: Screen)
    requires |s.page.items| > 0 && s.page.month.Null?
    ensures SameFacets(InitializeFiltersPass(s).page, InitializeFilters(s.page))
  {
    var b := s.(busy := true);
    var years := YearOptions(b.page.items);
    var listed := Show(b, b.page.(years := years));
    var ys := SetYear(listed, years[0]);
    assert ys.page == s.page.(years := years, year := years[0]);
    MonthPassAgrees(ys);
  }

  /** The load as it runs ends in `DetailPage.Load`, with the flag down, and never shows a
      stray selection. */
  lemma LoadPassAgrees(typ: int, loaded: seq<Item>)
    ensures LoadPass(typ, loaded).page == Load(typ, loaded)
    ensures !LoadPass(typ, loaded).busy
  {
    var blank := Blank(typ, SortByTimeDesc(loaded));
    var s := Screen(blank, false, [blank]);
    if |blank.items| == 0 {
      EmptyInitializeAgrees(s);
    } else {
      InitializeAgrees(s);
    }
    ApplyFiltersReadsFacets(InitializeFiltersPass(s).page, InitializeFilters(blank));
  }

  lemma LoadPassClean(typ: int, loaded: seq<Item>)
    ensures Clean(LoadPass(typ, loaded).shown)
  {
    var blank := Blank(typ, SortByTimeDesc(loaded));
    var s := Screen(blank, false, [blank]);
    assert Clean(s.shown);
    var b := s.(busy := true);
    var t := InitializeFiltersPass(s);
    if |blank.items| == 0 {
      var y := Show(b, b.page.(years := [All]));
      CleanAppend(b.shown, y.page);
      var m := Show(y, y.page.(months := [All]));
      CleanAppend(y.shown, m.page);
      var n := Show(m, m.page.(names := [All]));
      CleanAppend(m.shown, n.page);
      SetYearClean(n, All);
      var ys := SetYear(n, All);
      assert ys.page.month.Null? && ys.page.name.Null?;
      SetMonthClean(ys, All);
      var ms := SetMonth(ys, All);
      SetNameClean(ms, All);
    } else {
      var years := YearOptions(b.page.items);
      var listed := Show(b, b.page.(years := years));
      CleanAppend(b.shown, listed.page);
      SetYearClean(listed, years[0]);
      NoStraySelectionDuringUpdate(SetYear(listed, years[0]));
    }
    LoadPassAgrees(typ, loaded);
    CleanAppend(t.shown, ApplyFilters(t.page));
  }
}
